=== FILE: README.md ===
# TOTPGen in Dafny

A model of the code-generating core of TOTPGen, a small authenticator. It covers three parts of the program:

- **`totp.py`, the `TOTP` class.** It produces time-based one-time passwords as defined in section 4 of RFC 6238, built on the HOTP value of section 5.3 of RFC 4226. The pipeline is:
  - decode the Base32 secret;
  - pack the time-step counter as 8 big-endian bytes;
  - take an HMAC-SHA1 digest;
  - apply dynamic truncation to 31 bits;
  - reduce modulo `10^digits` and zero-fill.

  The object caches its code and refreshes it once the cache is 30 seconds old.
- **`main.py`, the older `TOTP` class.** It does the same arithmetic but has its own hand-written Base32 decoder and a counter fixed at construction time.
- **`secrets.py`, the `SecretsFile` store.** It keeps a list of entries with a dirty flag. The list is filled from an encrypted store file and from a plain-text staging file, and is written back only when the flag is set.

Modules:

| file | module | contents |
|---|---|---|
| `wrappers.dfy` | `Wrappers` | `Option`, `Result` |
| `seqs.dfy` | `Seqs` | `list.index` and `list.remove` on sequences, and two facts about concatenation |
| `digits.dfy` | `Digits` | big-endian digit strings: `int.to_bytes`, `int.from_bytes`, shifts as division by powers |
| `pystr.dfy` | `PyStr` | `str.upper`, `lower`, `strip`, `zfill`, `str(int)` and the `<` order on strings |
| `base32.dfy` | `Base32` | `b32decode(s, casefold=True)` per section 6 of RFC 4648, with a reference encoder |
| `hotp.dfy` | `Hotp` | counter packing, dynamic truncation, the decimal code |
| `totp.dfy` | `Totp` | the `TOTP` object of totp.py and its cache |
| `legacy_totp.dfy` | `LegacyTotp` | the `TOTP` object of main.py and its decoder |
| `secrets.dfy` | `Secrets` | the `SecretsFile` entry list and dirty flag |

Several things are parameters rather than modelled computations:

- **Time.** It is a whole number of seconds passed in by the caller.
- **HMAC-SHA1.** It is any function from key and message to 20 bytes.
- **SHA-256, Base64, Fernet and UTF-8 encoding.** These are the function fields of the `Secrets.Crypto` record.
- **File presence and contents.** These are `Option` values, where `None` stands for `FileNotFoundError`.
- **Exceptions.** They are `Failure`/`None` results.

## Model

| member | source | states |
|---|---|---|
| Hotp.PackCounter | totp.py:83-95 | packing succeeds exactly for 0 <= v < 2^64. A negative value gives the `ValueError`, and a larger one the `to_bytes` overflow. On success the 8 bytes read back big-endian as v |
| Hotp.PackOfUnpack | totp.py:83-95 | every 8-byte string is the packing of the number it spells, so packing is onto the 8-byte strings |
| Hotp.Offset | totp.py:112 | the offset is below 16, and four bytes from it still lie inside the 20-byte digest |
| Hotp.Truncate | totp.py:116-121 | the truncated value is below 2^31 and equals the 4 big-endian bytes at the offset with the top bit cleared |
| Hotp.TruncateIsWordLowBits | totp.py:116-121 | masking the first byte with 127 and or-ing the shifted bytes equals the 4-byte big-endian word modulo 2^31 |
| Hotp.FormatCode | totp.py:124 | the code has exactly `digits` characters, all decimal, and denotes the truncated value modulo 10^digits; for 0 digits it is "0" |
| Hotp.HotpCode | totp.py:106-124 | the code exists exactly when the counter packs. Its error is the packing error. On success the code is the HOTP value of the packed counter under the key: `digits` decimal characters, or "0" for 0 digits |
| Hotp.Section54Example | totp.py:112-124 | on the digest of the worked example in section 5.4 of RFC 4226 the offset is 10, the truncated value is 0x50ef7f19 and the 6-digit code is "872921" |
| Hotp.AppendixDCount0 | totp.py:106-124 | with the RFC 4226 appendix D digest for count 0, the code is "755224" |
| Hotp.AppendixDCount1 | totp.py:106-124 | with the RFC 4226 appendix D digest for count 1, the code is "287082" |
| Base32.SymbolValue | totp.py:103 | a character has a 5-bit value exactly when it is in the Base32 alphabet, and the alphabet character of that value is the character |
| Base32.AlphabetIsSymbolChars | main.py:44 | the 32-character alphabet lists the symbols in value order and contains exactly the Base32 symbols |
| Base32.ValuesOfSymbols | totp.py:103 | spelling 5-bit values as symbols and reading them back returns the values |
| Base32.PaddingLength | totp.py:103 | the count of trailing `=` characters: all of them are `=`, and the character before them is not |
| Base32.DecodeFolded | totp.py:103 | a non-alphabet character before the padding gives `NonBase32Digit`. Otherwise the result succeeds exactly when the padding length is 0, 1, 3, 4 or 6. A success has 5 bytes per group minus the bytes the padding removes |
| Base32.Decode | totp.py:103 | after upper-casing: `IncorrectPadding` exactly when the length is not a multiple of 8, or the symbols are all valid but the padding length is not 0, 1, 3, 4 or 6. `NonBase32Digit` exactly when an aligned input has a non-alphabet character before its padding. A success has 5 bytes per group minus the bytes the padding removes |
| Base32.DecodeEncode | totp.py:103 | decoding the RFC 4648 encoding of any byte string returns exactly that byte string |
| Totp.PadSecret | totp.py:102 | the padded length is the least multiple of 8 at or above the secret's length. Only `=` is appended, and an aligned secret is unchanged |
| Totp.NewDefault | totp.py:56-68 | `TOTP(secret)` with default arguments has name "NOT SET", account "your@email.com" and six-digit codes. It fails exactly when the first `__set_hotp` raises, with that exception; otherwise the object is consistent |
| Totp.SetHotp | totp.py:97-124 | a secret that does not decode raises the decoder's error first. Otherwise the result fails exactly when the counter does not pack. A success is the HOTP code of the counter under the decoded secret: `digits` decimal characters, or "0" for 0 digits |
| Totp.Counter | totp.py:126-131 | the counter is the number of whole 30-second steps: counter*30 <= t < (counter+1)*30 |
| Totp.CounterMonotone | totp.py:129-131 | a later time never gives a smaller counter |
| Totp.CounterNextStep | totp.py:129-131 | thirty seconds later the counter is exactly one larger |
| Totp.New | totp.py:56-68 | construction stores the upper-cased secret, the lower-cased account and the name as given. It fails exactly when the first `__set_hotp` raises, with that exception; otherwise the object is consistent (counter of its time, code of its counter) |
| Totp.GetTotp | totp.py:134-160 | a cache younger than 30 s is returned unchanged. An old one gets the counter and time of `now`, then a new code. If that raises, the counter and time have moved but the old code stays |
| Totp.GetTotpKeepsValid | totp.py:154-160 | a successful refresh leaves a consistent object whose code is the one returned |
| Totp.RefreshFailsOnlyOnOverflow | totp.py:154-160 | for a consistent object, a refresh fails exactly when the new counter no longer fits in 8 bytes |
| Totp.CounterNeverDecreases | totp.py:154-160 | whatever time is passed in, `get_totp` never moves a consistent object's counter back |
| Totp.ServedCounterLagsAtMostOneStep | totp.py:134-160 | freshness counts from the last refresh, so the served code belongs to the current time step or the one before it |
| Totp.StaleAcrossStepBoundary | totp.py:134-160 | an object refreshed at 59 s (step 1) still serves step 1's code at 60 s, when step 2 has begun |
| Totp.RefreshAfterOneStep | totp.py:134-160 | 30 seconds after a refresh the cache is old and the refresh moves to the next step |
| Totp.FirstCallServesConstructedCode | totp.py:56-68 | within 30 seconds of construction, `get_totp` returns the constructor's code and changes nothing |
| Totp.Spaced | totp.py:152 | the result is one longer than the code, has a space at index 3 (or at the end of a shorter code), and removing it gives back the code |
| Totp.SpacedSixDigits | totp.py:148-152 | a 6-digit code is shown as `xxx xxx`: 7 characters, a space at index 3, three digits on each side |
| Totp.GetTotpFmt | totp.py:148-152 | it has the same effect on the object as `get_totp` and fails when that fails, with that exception. On success it returns the cached code with the space inserted |
| Totp.LessIsStrictOrder | totp.py:75-81 | ordering by name is irreflexive and transitive, and total on objects with different names |
| Totp.NamesAreCaseSensitive | totp.py:81 | names are compared by code point without case folding: "Zeta" sorts before "alpha" |
| LegacyTotp.Prepare | main.py:48-53 | the decoder's input is upper-cased, stripped, then padded with the fewest `=` that reach a multiple of 8; an aligned input is unchanged |
| LegacyTotp.AlphabetIndex | main.py:64 | `BASE32_ALPHABET.index(c)` finds exactly the alphabet symbols, at their 5-bit values |
| LegacyTotp.ShiftIn | main.py:59-64 | one character is accepted exactly when it is `=` or an alphabet symbol, and the accumulator stays below 32^(k+1) |
| LegacyTotp.ChunkBits | main.py:58-64 | a chunk's accumulator exists exactly when every character is `=` or a symbol, and it is below 32^(chunk length) |
| LegacyTotp.ChunkBitsOfSymbols | main.py:58-64 | on symbols only, the accumulator is the chunk read as base-32 digits |
| LegacyTotp.ChunkBitsPadded | main.py:60-62 | each trailing `=` adds 5 to the accumulator instead of shifting it |
| LegacyTotp.ShiftedBytesAreDigits | main.py:67-69 | the five `(bits >> 8*(4-j)) & 0xFF` bytes are the accumulator's five big-endian base-256 digits |
| LegacyTotp.NonZero | main.py:68-69 | the kept bytes are never zero, and a byte is kept exactly when it occurs in the input and is not zero |
| LegacyTotp.NonZeroAppend | main.py:56-69 | dropping zero bytes chunk by chunk is the same as dropping them from the whole output |
| LegacyTotp.ChunkBytes | main.py:66-69 | a chunk contributes its accumulator's five big-endian bytes in order, minus the zero ones |
| LegacyTotp.DecodeChunks | main.py:56-71 | decoding succeeds exactly when every character is `=` or a symbol; at most 5 bytes come from each chunk, and no byte is zero |
| LegacyTotp.B32Decode | main.py:40-71 | `__b32decode` fails exactly when, after upper-casing, stripping and padding, a character other than `=` and the 32 symbols remains; whitespace at either end and `=` anywhere are accepted. Its output is at most 5 bytes per 8 prepared characters, and no byte is zero |
| LegacyTotp.DecodeChunksOfSymbols | main.py:56-69 | on whole chunks of symbols, the output is the RFC 4648 decoding with its zero bytes removed |
| LegacyTotp.AgreesWithRfcWithoutPadding | main.py:40-71 | when the prepared secret needs no padding, the standard decoder accepts it and this decoder returns its bytes minus the zero ones |
| LegacyTotp.PaddingAddsFive | main.py:60-62 | "ME======" decodes to 0x01 0xa2 here, but to the single byte 0x61 under RFC 4648 |
| LegacyTotp.ZeroBytesDropped | main.py:67-69 | "AAAAAAAA" decodes to nothing here, but to five zero bytes under RFC 4648 |
| LegacyTotp.New | main.py:26-38 | the counter is the number of whole 30-second steps at construction (the branch without `adjusted_time`), equal to totp.py's counter |
| LegacyTotp.GetHotp | main.py:84-110 | the `index` error occurs exactly when, after upper-casing, padding, stripping and padding again, a character other than `=` and the 32 symbols remains. Otherwise the result fails exactly when the counter does not fit in 8 bytes, with the overflow error. A success is the HOTP code of the counter under the legacy decoding of the secret: `digits` decimal characters, or "0" for 0 digits |
| LegacyTotp.GetTotp | main.py:124-127 | no clock is read: the `index` error occurs exactly when, after upper-casing, padding, stripping and padding again, a character other than `=` and the 32 symbols remains. Otherwise the call succeeds exactly when the counter fixed at construction fits in 8 bytes, fails with the overflow error when it does not, and a success is that counter's HOTP code under the legacy decoding of the secret: `digits` decimal characters, or "0" for 0 digits |
| Secrets.RemoveEntry | secrets.py:21-27 | an absent entry changes nothing, the flag included. For a present one, exactly the first equal element goes (multiset minus one copy), the rest keep their order, and the flag is set |
| Secrets.ReadLines | secrets.py:33 | `readlines` splits the text into nonempty lines that concatenate back to the text; every line but the last ends in a newline, and none has an inner one |
| Secrets.StagedEntriesMembers | secrets.py:33-36 | an entry is staged exactly when some line longer than one character strips to it |
| Secrets.StagedEntriesAppend | secrets.py:33-36 | staging is line by line: the entries of two runs of lines are the entries of each, in order |
| Secrets.CheckNewEntry | secrets.py:29-44 | with no staging file nothing changes. With one, the flag is set even if no line qualifies, the existing entries stay in front, and the staged entries follow in file order |
| Secrets.WhitespaceLineAddsEmptyEntry | secrets.py:34-36 | a bare newline is skipped, but a line of a space and a newline adds the empty entry |
| Secrets.OneCharacterLastLineSkipped | secrets.py:33-36 | a final line of one character without a newline is read as a line but adds no entry |
| Secrets.OpenPrefix | secrets.py:83-89 | the entries appended before the loop stops: each is its stored line opened, in order, and if fewer than all lines were opened, the next line fails to open |
| Secrets.OpenLines | secrets.py:83-89 | decryption succeeds exactly when every stored line decrypts, and gives one entry per line, in order |
| Secrets.DecryptDb | secrets.py:78-92 | with no store file nothing changes. Otherwise it raises exactly when some line fails to decrypt. On success the old entries are followed by one decrypted entry per stored line. On failure they are followed by the decrypted entries of the lines before the first bad one, which stay appended. The flag and key are kept either way |
| Secrets.Open | secrets.py:8-19 | a missing key file is an error. With a key file, opening fails exactly when a stored line does not decrypt. The key is derived from the key-file bytes alone. The flag is set exactly when a staging file exists. The entries are the decrypted stored lines in order, followed by the staged entries |
| Secrets.Copies | secrets.py:72-74 | n copies of a text: length n times its length, character k being the text's character k mod its length |
| Secrets.EncryptData | secrets.py:58-76 | with the flag clear nothing is written. With it set, the Base64 token of the encrypted `str(data)` is written once per byte of that text |
| Secrets.Finalize | secrets.py:94-96 | something is written exactly when the flag is set, and it is what `encrypt_data` writes |
| Secrets.RemoveAbsent | secrets.py:21-27 | removing entries that are all absent leaves the store unchanged, flag included |
| Secrets.NothingToWrite | secrets.py:8-27 | a session with no staging file that only removes absent entries writes nothing back |

## Left out

- HMAC-SHA1, SHA-256, Base64, Fernet and UTF-8 are library calls. They are parameters: HMAC-SHA1 is constrained only to return 20 bytes, and the others not at all.
- Secrets.DeriveKey has no contract of its own. Being a function of the key-file bytes and the primitives is the whole of `derive_key`'s promise, and `Secrets.Open` states that the stored key is it.
- File I/O is not modelled. This covers `open`, `os.remove`, the `PermissionError` warning when deleting the staging file, and `read_keyfile`'s re-raise. File presence and contents are `Option` parameters, and `readlines`' universal-newline translation of `\r` is not modelled.
- The encrypt-then-decrypt round trip of the store is not claimed. The write path stores `str(data)` and repeats the token once per byte. The read path would append that whole text as one entry. The code does not promise that the list survives.
- Secrets.EncryptData: the reassignment of `self.data` to the encoded text before writing is not modelled as a change of state. The write loop's count is taken from that text, and nothing reads `self.data` afterwards.
- Time is a natural number of seconds. Floating-point time, `datetime`, and a clock that reads differently in `__update_counter` and `__is_old` are not modelled.
- The `adjusted_time` branch of main.py's `__update_counter` (lines 117-122) relies on `strptime` and `datetime` arithmetic, so it is not modelled.
- Non-integer counters and digit counts (`isinstance` checks and Python's other numeric types) are not modelled. Counters and digit counts are natural numbers, so the negative-counter error of `__custom_pack_q` is stated by `Hotp.PackCounter` on integers.
- Case mapping covers ASCII letters only. Python's full Unicode `upper`/`lower` (for example 'ß' becoming "SS") is not modelled. A non-ASCII character in a totp.py secret is reported as `NonBase32Digit`, where Python's `b32decode` raises its own `ValueError` for non-ASCII text.
- The `print` calls in `remove_entry` and `check_new_entry` (secrets.py:22, secrets.py:37) write to the console only, so they are not modelled.
- Python's `str(list)` formatting of the entries (secrets.py:62) is the abstract `repr` field of `Secrets.Crypto`. Its exact quoting and escaping are not modelled.
- `TOTP.__str__` (totp.py:70-73) is display formatting only, so it is not modelled.
- view.py is PyQt user-interface and timer code, so it is not modelled.
- The `__main__` block of main.py reads `.env` and prints in a loop, so it is not modelled.
- Totp.GetTotp: the cache can serve a code from the previous time step. This is stated as it is (`Totp.ServedCounterLagsAtMostOneStep`, `Totp.StaleAcrossStepBoundary`) rather than treated as a defect, because the source measures freshness from the last refresh on purpose.
- Objects are ordered by the raw `name`, which the constructor does not case-fold. The formatted code always puts its space after the third character, whatever the number of digits.

## Findings

| source | as written | input that shows it | evidently intended | confidence | as-written member | corrected member |
|---|---|---|---|---|---|---|
| main.py:60-62 | a `=` adds 5 to the chunk accumulator instead of shifting it by 5 bits | "ME======" (the RFC 4648 encoding of 0x61) decodes to 0x01 0xa2 | `base64.b32decode(s, casefold=True)`, as the docstring at main.py:41 says, giving 0x61 | high; not executed | LegacyTotp.PaddingAddsFive | Base32.DecodeEncode |
| main.py:67-69 | every byte equal to zero is left out of the output | "AAAAAAAA" (the encoding of five zero bytes) decodes to the empty string | the five zero bytes, as `b32decode` returns | high; not executed | LegacyTotp.ZeroBytesDropped | Base32.DecodeEncode |

The as-written decoder is `LegacyTotp.B32Decode`. The corrected decoder is `Base32.Decode`, which totp.py uses and the `Totp` module is built on. `Base32.DecodeEncode` proves that it inverts RFC 4648 encoding. `LegacyTotp.AgreesWithRfcWithoutPadding` shows that the two decoders differ only by the zero bytes when no padding is involved.

=== FILE: base32.dfy ===
/**
 Base32 as defined in section 6 of RFC 4648, in the form the standard
 library's `b32decode(s, casefold=True)` applies it: the input length must be
 a multiple of 8, lower-case letters are accepted, the trailing `=` padding
 must be 0, 1, 3, 4 or 6 characters long, and no other character outside
 the 32-symbol alphabet may appear. Every 8 symbols carry 40 bits, that is
 5 bytes; a final partial group of 2, 4, 5 or 7 symbols carries 1, 2, 3 or
 4 bytes, and its left-over bits are dropped.

 The encoder is the reference direction (it is not used by the program); the
 round trip `Decode(Encode(b)) == Success(b)` ties the two together.
 */
module Base32 {
  import opened Wrappers
  import opened Digits
  import PyStr

  /** The value of a symbol: 'A'..'Z' are 0..25, '2'..'7' are 26..31. */
  function SymbolChar(v: nat): (c: char)
    requires v < 32
    ensures IsSymbol(c)
  {
    if v < 26 then ('A' as int + v) as char else ('2' as int + v - 26) as char
  }

  const Alphabet: string := "ABCDEFGHIJKLMNOPQRSTUVWXYZ234567"

  const PadChar: char := '='

  /** A character of the alphabet. */
  predicate IsSymbol(c: char) {
    'A' <= c <= 'Z' || '2' <= c <= '7'
  }

  /** The alphabet lists the symbols in value order, and nothing else. */
  lemma AlphabetIsSymbolChars()
    ensures |Alphabet| == 32
    ensures forall v :: 0 <= v < 32 ==> Alphabet[v] == SymbolChar(v)
    ensures forall c :: c in Alphabet <==> IsSymbol(c)
  {
    var spelled := seq(32, v requires 0 <= v < 32 => SymbolChar(v));
    assert Alphabet == spelled;
    forall c | IsSymbol(c) ensures c in Alphabet {
      assert spelled[SymbolValue(c).value] == c;
    }
  }

  /** The value of an alphabet character, `None` for any other character. */
  function SymbolValue(c: char): (r: Option<nat>)
    ensures r.Some? <==> IsSymbol(c)
    ensures r.Some? ==> r.value < 32 && SymbolChar(r.value) == c
  {
    if 'A' <= c <= 'Z' then Some(c as int - 'A' as int)
    else if '2' <= c <= '7' then Some(c as int - '2' as int + 26)
    else None
  }

  lemma SymbolValueOfChar(v: nat)
    requires v < 32
    ensures SymbolValue(SymbolChar(v)) == Some(v)
  {
  }

  predicate IsSymbols(s: string) {
    forall i :: 0 <= i < |s| ==> IsSymbol(s[i])
  }

  /** The 5-bit values of a run of alphabet characters, position by position. */
  function Values(s: string): (vs: seq<nat>)
    requires IsSymbols(s)
    ensures |vs| == |s| && IsDigits(vs, 32)
    ensures forall i :: 0 <= i < |s| ==> SymbolChar(vs[i]) == s[i]
  {
    seq(|s|, i requires 0 <= i < |s| => SymbolValue(s[i]).value)
  }

  /** The alphabet characters spelling a run of 5-bit values, position by position. */
  function Symbols(vs: seq<nat>): (s: string)
    requires IsDigits(vs, 32)
    ensures |s| == |vs| && IsSymbols(s)
    ensures forall i :: 0 <= i < |vs| ==> SymbolValue(s[i]) == Some(vs[i])
  {
    seq(|vs|, i requires 0 <= i < |vs| => SymbolChar(vs[i]))
  }

  /** Reading the symbols of a run of 5-bit values gives the values back. */
  lemma ValuesOfSymbols(vs: seq<nat>)
    requires IsDigits(vs, 32)
    ensures Values(Symbols(vs)) == vs
  {
  }

  // ---------------------------------------------------------------------------
  // Decoding

  datatype DecodeError = IncorrectPadding | NonBase32Digit

  /** The number of `=` characters `s` ends with. */
  function PaddingLength(s: string): (n: nat)
    ensures n <= |s|
    ensures forall i :: |s| - n <= i < |s| ==> s[i] == PadChar
    ensures n < |s| ==> s[|s| - n - 1] != PadChar
  {
    if |s| > 0 && s[|s| - 1] == PadChar then 1 + PaddingLength(s[..|s| - 1]) else 0
  }

  /** The padding lengths RFC 4648 allows after a final group of 8, 7, 5, 4 or 2 symbols. */
  predicate ValidPadding(n: nat) {
    n == 0 || n == 1 || n == 3 || n == 4 || n == 6
  }

  /** The number of whole bytes, floor(5 * k / 8), that `k` symbols (k < 8) of a final group carry. */
  function BytesFor(k: nat): nat {
    if k < 2 then 0 else if k < 4 then 1 else if k == 4 then 2 else if k < 7 then 3 else 4
  }

  predicate IsPartialGroupLength(k: nat) {
    k == 2 || k == 4 || k == 5 || k == 7
  }

  /** A full group: 8 symbols, 40 bits, 5 bytes. */
  function DecodeGroup(q: string): (bs: seq<byte>)
    requires |q| == 8 && IsSymbols(q)
    ensures |bs| == 5
  {
    AsBytes(ToDigits(FromDigits(Values(q), 32), 5, 256))
  }

  /** A final group of `k` symbols, the missing ones counting as zero bits. */
  function DecodePartialGroup(q: string): (bs: seq<byte>)
    requires IsPartialGroupLength(|q|) && IsSymbols(q)
    ensures |bs| == BytesFor(|q|)
  {
    AsBytes(ToDigits(FromDigits(Values(q), 32) * Pow(32, 8 - |q|), 5, 256))[..BytesFor(|q|)]
  }

  /** The symbols before the padding, group by group. */
  function DecodeBody(body: string): (bs: seq<byte>)
    requires IsSymbols(body)
    requires |body| % 8 == 0 || IsPartialGroupLength(|body| % 8)
    ensures |bs| == 5 * (|body| / 8) + BytesFor(|body| % 8)
    decreases |body|
  {
    if |body| == 0 then []
    else if |body| < 8 then DecodePartialGroup(body)
    else
      GroupStep(|body|);
      DecodeGroup(body[..8]) + DecodeBody(body[8..])
  }

  /** Removing one group of 8 leaves the same remainder and one group fewer. */
  lemma GroupStep(n: nat)
    requires n >= 8
    ensures (n - 8) / 8 == n / 8 - 1 && (n - 8) % 8 == n % 8
  {
    DivModStep(n / 8 - 1, n % 8, 8);
  }

  /**
   After removing `pad` valid padding characters from a multiple of 8, what is
   left is whole groups and possibly one partial group of `8 - pad` symbols.
   */
  lemma BodyShape(n: nat, pad: nat)
    requires n % 8 == 0 && pad <= n && ValidPadding(pad)
    ensures (n - pad) % 8 == 0 || IsPartialGroupLength((n - pad) % 8)
    ensures 5 * ((n - pad) / 8) + BytesFor((n - pad) % 8)
         == 5 * (n / 8) - (if pad == 0 then 0 else 5 - BytesFor(8 - pad))
  {
    if pad > 0 {
      DivModStep(n / 8 - 1, 8 - pad, 8);
    }
  }

  /**
   Decoding once the input is known to be a whole number of 8-character
   groups and has been case-folded: the symbols before the trailing `=` run
   must all be in the alphabet, and that run must have an allowed length.
   */
  function DecodeFolded(u: string): (r: Result<seq<byte>, DecodeError>)
    requires |u| % 8 == 0
    ensures var pad := PaddingLength(u);
      && (r == Failure(NonBase32Digit) <==> !IsSymbols(u[..|u| - pad]))
      && (r.Success? <==> IsSymbols(u[..|u| - pad]) && ValidPadding(pad))
      && (r.Success? ==> |r.value| == 5 * (|u| / 8) - (if pad == 0 then 0 else 5 - BytesFor(8 - pad)))
  {
    var pad := PaddingLength(u);
    var body := u[..|u| - pad];
    if !IsSymbols(body) then Failure(NonBase32Digit)
    else if !ValidPadding(pad) then Failure(IncorrectPadding)
    else
      BodyShape(|u|, pad);
      Success(DecodeBody(body))
  }

  /** `b32decode(s, casefold=True)`. */
  function Decode(s: string): (r: Result<seq<byte>, DecodeError>)
    ensures var u := PyStr.Upper(s); var pad := PaddingLength(u);
      && (r == Failure(IncorrectPadding) <==> |s| % 8 != 0 || (IsSymbols(u[..|u| - pad]) && !ValidPadding(pad)))
      && (r == Failure(NonBase32Digit) <==> |s| % 8 == 0 && !IsSymbols(u[..|u| - pad]))
      && (r.Success? ==> |r.value| == 5 * (|s| / 8) - (if pad == 0 then 0 else 5 - BytesFor(8 - pad)))
  {
    if |s| % 8 != 0 then Failure(IncorrectPadding) else DecodeFolded(PyStr.Upper(s))
  }

  // ---------------------------------------------------------------------------
  // Encoding (reference direction)

  /** The number of symbols, ceiling(8 * n / 5), that a final group of `n` bytes (n < 5) needs. */
  function CharsFor(n: nat): nat {
    if n == 0 then 0 else if n == 1 then 2 else if n == 2 then 4 else if n == 3 then 5 else 7
  }

  function EncodeGroup(g: seq<byte>): (q: string)
    requires |g| == 5
    ensures |q| == 8 && IsSymbols(q)
  {
    Symbols(ToDigits(FromDigits(g, 256), 8, 32))
  }

  function EncodePartialGroup(g: seq<byte>): (q: string)
    requires 1 <= |g| <= 4
    ensures |q| == CharsFor(|g|) && IsSymbols(q)
  {
    Symbols(ToDigits(FromDigits(g, 256) * Pow(256, 5 - |g|), 8, 32)[..CharsFor(|g|)])
  }

  function EncodeBody(bs: seq<byte>): (s: string)
    ensures |s| == 8 * (|bs| / 5) + CharsFor(|bs| % 5)
    ensures IsSymbols(s)
    decreases |bs|
  {
    if |bs| == 0 then []
    else if |bs| < 5 then EncodePartialGroup(bs)
    else EncodeGroup(bs[..5]) + EncodeBody(bs[5..])
  }

  /** The padding after the symbols of `n` bytes. */
  function PaddingFor(n: nat): (p: nat)
    ensures CharsFor(n % 5) + p == if n % 5 == 0 then 0 else 8
    ensures p == 0 || ValidPadding(p)
  {
    var r := n % 5;
    if r == 0 then 0 else if r == 1 then 6 else if r == 2 then 4 else if r == 3 then 3 else 1
  }

  /** `b32encode(bs)`: the symbols of `bs` followed by the padding to a multiple of 8. */
  function Encode(bs: seq<byte>): (s: string)
    ensures |s| % 8 == 0
  {
    var body := EncodeBody(bs);
    var pad := PaddingFor(|bs|);
    var groups := |bs| / 5 + if |bs| % 5 == 0 then 0 else 1;
    assert |body| + pad == groups * 8;
    DivModStep(groups, 0, 8);
    body + PyStr.Repeat(PadChar, pad)
  }

  // ---------------------------------------------------------------------------
  // Round trip

  lemma DecodeEncodeGroup(g: seq<byte>)
    requires |g| == 5
    ensures DecodeGroup(EncodeGroup(g)) == g
  {
    var x := FromDigits(g, 256);
    var ds := ToDigits(x, 8, 32);
    ValuesOfSymbols(ds);
    FromDigitsBound(g, 256);
    PowFacts();
    FromToDigits(x, 8, 32);
    ToFromDigits(g, 256);
  }

  lemma PowFacts()
    ensures Pow(256, 1) == 256 && Pow(256, 2) == 65536 && Pow(256, 3) == 16777216
    ensures Pow(256, 4) == 4294967296 && Pow(256, 5) == 1099511627776
    ensures Pow(32, 1) == 32 && Pow(32, 2) == 1024 && Pow(32, 3) == 32768 && Pow(32, 4) == 1048576
    ensures Pow(32, 5) == 33554432 && Pow(32, 6) == 1073741824 && Pow(32, 7) == 34359738368
    ensures Pow(32, 8) == 1099511627776
  {
  }

  /** The first `k` of `k + m` digits of a multiple of `base^m`. */
  lemma TopDigits(w: nat, k: nat, m: nat, base: nat)
    requires base >= 2
    ensures ToDigits(w * Pow(base, m), k + m, base)[..k] == ToDigits(w, k, base)
  {
    ToDigitsShift(w, k, m, base);
  }

  lemma MulBelow(x: nat, p: nat, m: nat)
    requires x < p && m > 0
    ensures x * m < p * m
  {
  }

  /**
   A final group of `n` bytes: its 8 * n bits, shifted to the top of 40, are
   `mult` times a multiple of 32^(8 - k), so the symbols after the first `k`
   are zero and dropping them loses nothing.
   */
  lemma DecodeEncodePartialWith(g: seq<byte>, k: nat, mult: nat)
    requires 1 <= |g| <= 4 && k == CharsFor(|g|) && IsPartialGroupLength(k)
    requires Pow(256, 5 - |g|) == mult * Pow(32, 8 - k)
    requires Pow(256, |g|) * mult == Pow(32, k)
    requires BytesFor(k) == |g|
    ensures DecodePartialGroup(EncodePartialGroup(g)) == g
  {
    var n := |g|;
    var x := FromDigits(g, 256);
    var w := x * mult;
    var v := x * Pow(256, 5 - n);
    ShiftSplit(x, mult, Pow(256, 5 - n), Pow(32, 8 - k));
    var q := EncodePartialGroup(g);
    PartialSymbols(g, k, w);
    PartialValue(g, k, mult);
    PartialBytes(g, k, w);
  }

  lemma ShiftSplit(x: nat, mult: nat, p: nat, p': nat)
    requires p == mult * p'
    ensures x * p == (x * mult) * p'
  {
  }

  lemma PartialSymbols(g: seq<byte>, k: nat, w: nat)
    requires 1 <= |g| <= 4 && k == CharsFor(|g|)
    requires FromDigits(g, 256) * Pow(256, 5 - |g|) == w * Pow(32, 8 - k)
    ensures EncodePartialGroup(g) == Symbols(ToDigits(w, k, 32))
  {
    TopDigits(w, k, 8 - k, 32);
  }

  lemma PartialValue(g: seq<byte>, k: nat, mult: nat)
    requires 1 <= |g| <= 4 && k == CharsFor(|g|)
    requires Pow(256, |g|) * mult == Pow(32, k)
    ensures FromDigits(Values(Symbols(ToDigits(FromDigits(g, 256) * mult, k, 32))), 32) == FromDigits(g, 256) * mult
  {
    var x := FromDigits(g, 256);
    var w := x * mult;
    ValuesOfSymbols(ToDigits(w, k, 32));
    FromDigitsBound(g, 256);
    MulBelow(x, Pow(256, |g|), mult);
    FromToDigits(w, k, 32);
  }

  lemma PartialBytes(g: seq<byte>, k: nat, w: nat)
    requires 1 <= |g| <= 4 && k == CharsFor(|g|) && IsPartialGroupLength(k) && BytesFor(k) == |g|
    requires FromDigits(g, 256) * Pow(256, 5 - |g|) == w * Pow(32, 8 - k)
    requires FromDigits(Values(Symbols(ToDigits(w, k, 32))), 32) == w
    ensures DecodePartialGroup(Symbols(ToDigits(w, k, 32))) == g
  {
    TopDigits(FromDigits(g, 256), |g|, 5 - |g|, 256);
    ToFromDigits(g, 256);
  }

  lemma DecodeEncodePartial(g: seq<byte>)
    requires 1 <= |g| <= 4
    ensures DecodePartialGroup(EncodePartialGroup(g)) == g
  {
    PowFacts();
    if |g| == 1 {
      DecodeEncodePartialWith(g, 2, 4);
    } else if |g| == 2 {
      DecodeEncodePartialWith(g, 4, 16);
    } else if |g| == 3 {
      DecodeEncodePartialWith(g, 5, 2);
    } else {
      DecodeEncodePartialWith(g, 7, 8);
    }
  }

  lemma EncodeBodyLength(bs: seq<byte>)
    ensures |EncodeBody(bs)| % 8 == CharsFor(|bs| % 5)
    ensures |EncodeBody(bs)| % 8 == 0 || IsPartialGroupLength(|EncodeBody(bs)| % 8)
  {
    var q, c := |bs| / 5, CharsFor(|bs| % 5);
    assert |EncodeBody(bs)| == q * 8 + c;
    DivModStep(q, c, 8);
  }

  lemma {:induction false} DecodeEncodeBody(bs: seq<byte>)
    ensures |EncodeBody(bs)| % 8 == 0 || IsPartialGroupLength(|EncodeBody(bs)| % 8)
    ensures DecodeBody(EncodeBody(bs)) == bs
    decreases |bs|
  {
    EncodeBodyLength(bs);
    if |bs| == 0 {
    } else if |bs| < 5 {
      DecodeEncodePartial(bs);
    } else {
      DecodeEncodeBody(bs[5..]);
      DecodeEncodeGroup(bs[..5]);
      DecodeBodyOfConcat(EncodeGroup(bs[..5]), EncodeBody(bs[5..]));
      assert bs == bs[..5] + bs[5..];
    }
  }

  /** A full group in front decodes on its own. */
  lemma DecodeBodyOfConcat(q: string, rest: string)
    requires |q| == 8 && IsSymbols(q) && IsSymbols(rest)
    requires |rest| % 8 == 0 || IsPartialGroupLength(|rest| % 8)
    ensures IsSymbols(q + rest) && (|q + rest| % 8 == 0 || IsPartialGroupLength(|q + rest| % 8))
    ensures DecodeBody(q + rest) == DecodeGroup(q) + DecodeBody(rest)
  {
    var s := q + rest;
    assert s[..8] == q && s[8..] == rest;
  }

  /** Stripping the padding `Encode` appended leaves exactly the symbols. */
  lemma {:induction false} PaddingLengthOfPadded(body: string, n: nat)
    requires |body| == 0 || body[|body| - 1] != PadChar
    ensures PaddingLength(body + PyStr.Repeat(PadChar, n)) == n
  {
    if n > 0 {
      var s := body + PyStr.Repeat(PadChar, n);
      assert s[..|s| - 1] == body + PyStr.Repeat(PadChar, n - 1);
      PaddingLengthOfPadded(body, n - 1);
    }
  }

  /** Decoding undoes encoding, for every byte string. */
  lemma DecodeEncode(bs: seq<byte>)
    ensures Decode(Encode(bs)) == Success(bs)
  {
    var body := EncodeBody(bs);
    var pad := PaddingFor(|bs|);
    var s := Encode(bs);
    assert forall i :: 0 <= i < |s| ==> !PyStr.IsAsciiLower(s[i]) by {
      forall i | 0 <= i < |s| ensures !PyStr.IsAsciiLower(s[i]) {
        if i < |body| {
          assert s[i] == body[i];
        }
      }
    }
    PyStr.UpperOfUpper(s);
    if |body| > 0 {
      assert IsSymbol(body[|body| - 1]);
    }
    PaddingLengthOfPadded(body, pad);
    assert s[..|s| - pad] == body;
    DecodeEncodeBody(bs);
  }
}

=== FILE: digits.dfy ===
/**
 Big-endian positional notation in an arbitrary base: the arithmetic behind
 `int.to_bytes(..., byteorder="big")`, the 5-bit Base32 symbol groups and
 decimal strings.
 */
module Digits {

  /** An unsigned 8-bit value, as held in a Python `bytes` object. */
  type byte = b: nat | b < 256

  function Pow(b: nat, n: nat): (r: nat)
    ensures b >= 1 ==> r >= 1
  {
    if n == 0 then 1 else b * Pow(b, n - 1)
  }

  /** Every element is a digit of `base`. */
  predicate IsDigits(ds: seq<nat>, base: nat) {
    forall i :: 0 <= i < |ds| ==> ds[i] < base
  }

  /** The number written by `ds`, most significant digit first. */
  function FromDigits(ds: seq<nat>, base: nat): nat
  {
    if |ds| == 0 then 0 else FromDigits(ds[..|ds| - 1], base) * base + ds[|ds| - 1]
  }

  /** The `n` low-order digits of `v` in `base`, most significant first. */
  function ToDigits(v: nat, n: nat, base: nat): (ds: seq<nat>)
    requires base >= 2
    ensures |ds| == n
    ensures IsDigits(ds, base)
  {
    if n == 0 then [] else ToDigits(v / base, n - 1, base) + [v % base]
  }

  /** `n` zero digits. */
  function Zeros(n: nat): (zs: seq<nat>)
    ensures |zs| == n
    ensures forall i :: 0 <= i < n ==> zs[i] == 0
  {
    seq(n, _ => 0)
  }

  /** Base-256 digits seen as bytes. */
  function AsBytes(ds: seq<nat>): (bs: seq<byte>)
    requires IsDigits(ds, 256)
    ensures bs == ds
  {
    ds
  }

  /** Division by `b` undoes the step `q * b + r` of positional notation. */
  lemma DivModStep(q: nat, r: nat, b: nat)
    requires r < b
    ensures (q * b + r) / b == q
    ensures (q * b + r) % b == r
  {
    var a := q * b + r;
    var q', r' := a / b, a % b;
    assert a == q' * b + r';
    assert (q - q') * b == r' - r;
    MulSmall(q - q', b);
  }

  lemma MulSmall(x: int, b: int)
    requires b > 0 && -b < x * b < b
    ensures x == 0
  {
  }

  lemma MulPositive(x: int, b: int)
    requires b > 0 && x * b > 0
    ensures x > 0
  {
  }

  lemma MulMono(x: nat, y: nat, b: nat)
    requires x <= y
    ensures x * b <= y * b
  {
  }

  /** Dropping the last digit of a number below `p * b` leaves one below `p`. */
  lemma DivBound(v: nat, b: nat, p: nat)
    requires b > 0 && v < p * b
    ensures v / b < p
  {
    var q := v / b;
    assert v == q * b + v % b;
    assert (p - q) * b > 0;
    MulPositive(p - q, b);
  }

  lemma PowStep(b: nat, n: nat)
    requires n > 0
    ensures Pow(b, n) == Pow(b, n - 1) * b
  {
  }

  /** Dropping the last digit of a number below `base^n` leaves one below `base^(n-1)`. */
  lemma DivPow(v: nat, n: nat, base: nat)
    requires base >= 2 && n > 0 && v < Pow(base, n)
    ensures v / base < Pow(base, n - 1)
  {
    PowStep(base, n);
    DivBound(v, base, Pow(base, n - 1));
  }

  /** One step of `ToDigits`: the last digit is the remainder. */
  lemma ToDigitsStep(v: nat, n: nat, base: nat)
    requires base >= 2 && n > 0
    ensures ToDigits(v, n, base) == ToDigits(v / base, n - 1, base) + [v % base]
  {
  }

  lemma Euclid(v: nat, b: nat)
    requires b > 0
    ensures v == (v / b) * b + v % b && v % b < b
  {
  }

  lemma FromDigitsSnoc(ds: seq<nat>, d: nat, base: nat)
    ensures FromDigits(ds + [d], base) == FromDigits(ds, base) * base + d
  {
    assert (ds + [d])[..|ds|] == ds;
  }

  /** Digits of `base` write a number below `base^|ds|`. */
  lemma {:induction false} FromDigitsBound(ds: seq<nat>, base: nat)
    requires base >= 1 && IsDigits(ds, base)
    ensures FromDigits(ds, base) < Pow(base, |ds|)
  {
    if |ds| == 0 {
      assert FromDigits(ds, base) == 0;
    } else {
      var p := ds[..|ds| - 1];
      assert IsDigits(p, base);
      FromDigitsBound(p, base);
      PowStep(base, |ds|);
      DigitBound(FromDigits(p, base), ds[|ds| - 1], Pow(base, |p|), base);
    }
  }

  /** Appending a digit to a number below `p` gives one below `p * b`. */
  lemma DigitBound(f: nat, d: nat, p: nat, b: nat)
    requires f < p && d < b
    ensures f * b + d < p * b
  {
    MulMono(f + 1, p, b);
  }

  /** Reading back the `n` digits of a number below `base^n` gives the number. */
  lemma {:induction false} FromToDigits(v: nat, n: nat, base: nat)
    requires base >= 2 && v < Pow(base, n)
    ensures FromDigits(ToDigits(v, n, base), base) == v
  {
    if n == 0 {
      assert v == 0;
    } else {
      var q := v / base;
      DivPow(v, n, base);
      FromToDigits(q, n - 1, base);
      FromToDigitsStep(v, n, base);
    }
  }

  lemma FromToDigitsStep(v: nat, n: nat, base: nat)
    requires base >= 2 && n > 0
    requires FromDigits(ToDigits(v / base, n - 1, base), base) == v / base
    ensures FromDigits(ToDigits(v, n, base), base) == v
  {
    ToDigitsStep(v, n, base);
    FromDigitsSnoc(ToDigits(v / base, n - 1, base), v % base, base);
    Euclid(v, base);
  }

  /** Writing out the value of a digit string with as many digits gives the string back. */
  lemma {:induction false} ToFromDigits(ds: seq<nat>, base: nat)
    requires base >= 2 && IsDigits(ds, base)
    ensures ToDigits(FromDigits(ds, base), |ds|, base) == ds
  {
    if |ds| > 0 {
      var p, d := ds[..|ds| - 1], ds[|ds| - 1];
      assert IsDigits(p, base);
      assert ds == p + [d];
      var f := FromDigits(p, base);
      DivModStep(f, d, base);
      ToFromDigits(p, base);
      ToDigitsStep(f * base + d, |ds|, base);
    }
  }

  /** A multiple of `base^m` ends in `m` zero digits. */
  lemma {:induction false} ToDigitsShift(w: nat, n: nat, m: nat, base: nat)
    requires base >= 2
    ensures ToDigits(w * Pow(base, m), n + m, base) == ToDigits(w, n, base) + Zeros(m)
  {
    if m == 0 {
      ToDigitsShiftBase(w, n, base);
    } else {
      ToDigitsShift(w, n, m - 1, base);
      ToDigitsShiftStep(w, n, m, base);
    }
  }

  lemma ToDigitsShiftBase(w: nat, n: nat, base: nat)
    requires base >= 2
    ensures ToDigits(w * Pow(base, 0), n + 0, base) == ToDigits(w, n, base) + Zeros(0)
  {
    assert w * Pow(base, 0) == w;
    assert ToDigits(w, n, base) + Zeros(0) == ToDigits(w, n, base);
  }

  lemma MulPowStep(w: nat, base: nat, m: nat)
    requires m > 0
    ensures w * Pow(base, m) == (w * Pow(base, m - 1)) * base
  {
    PowStep(base, m);
  }

  lemma ToDigitsShiftStep(w: nat, n: nat, m: nat, base: nat)
    requires base >= 2 && m > 0
    requires ToDigits(w * Pow(base, m - 1), n + m - 1, base) == ToDigits(w, n, base) + Zeros(m - 1)
    ensures ToDigits(w * Pow(base, m), n + m, base) == ToDigits(w, n, base) + Zeros(m)
  {
    var x := w * Pow(base, m - 1);
    var t := ToDigits(w, n, base);
    MulPowStep(w, base, m);
    assert ToDigits(x * base, n + m, base) == ToDigits(x, n + m - 1, base) + [0] by {
      DivModStep(x, 0, base);
      ToDigitsStep(x * base, n + m, base);
    }
    assert (t + Zeros(m - 1)) + [0] == t + Zeros(m) by {
      assert Zeros(m) == Zeros(m - 1) + [0];
    }
  }

  /** A number below `base^n` written with `n + k` digits starts with `k` zeros. */
  lemma {:induction false} ToDigitsLeadingZeros(v: nat, n: nat, k: nat, base: nat)
    requires base >= 2 && v < Pow(base, n)
    ensures ToDigits(v, n + k, base) == Zeros(k) + ToDigits(v, n, base)
  {
    if n == 0 {
      assert v == 0;
      ToDigitsOfZero(k, base);
    } else {
      DivPow(v, n, base);
      ToDigitsLeadingZeros(v / base, n - 1, k, base);
      PrependZerosStep(v, n, k, base);
    }
  }

  lemma PrependZerosStep(v: nat, n: nat, k: nat, base: nat)
    requires base >= 2 && n > 0
    requires ToDigits(v / base, n - 1 + k, base) == Zeros(k) + ToDigits(v / base, n - 1, base)
    ensures ToDigits(v, n + k, base) == Zeros(k) + ToDigits(v, n, base)
  {
    ToDigitsStep(v, n + k, base);
    ToDigitsStep(v, n, base);
    var z, t := Zeros(k), ToDigits(v / base, n - 1, base);
    assert (z + t) + [v % base] == z + (t + [v % base]);
  }

  lemma {:induction false} ToDigitsOfZero(k: nat, base: nat)
    requires base >= 2
    ensures ToDigits(0, k, base) == Zeros(k)
  {
    if k > 0 {
      ToDigitsOfZero(k - 1, base);
      ToDigitsStep(0, k, base);
      assert Zeros(k) == Zeros(k - 1) + [0];
    }
  }

  /** Dividing by `a` and then by `b` is dividing by `a * b`. */
  lemma DivDiv(v: nat, a: nat, b: nat)
    requires a > 0 && b > 0
    ensures (v / a) / b == v / (a * b)
  {
    var x, r1 := v / a, v % a;
    var q, r2 := x / b, x % b;
    Euclid(v, a);
    Euclid(x, b);
    Regroup(q, r2, r1, a, b);
    DivModStep(q, r2 * a + r1, a * b);
  }

  /** `(q * b + r2) * a + r1` is `q` groups of `a * b` plus a remainder below `a * b`. */
  lemma Regroup(q: nat, r2: nat, r1: nat, a: nat, b: nat)
    requires r2 < b && r1 < a
    ensures (q * b + r2) * a + r1 == q * (a * b) + (r2 * a + r1)
    ensures r2 * a + r1 < a * b
  {
    MulMono(r2, b - 1, a);
    assert (b - 1) * a == b * a - a;
  }

  /**
   Digit `j` of the `n`-digit spelling of `v` is `v` shifted right by the
   `n - 1 - j` digits after it, reduced to one digit.
   */
  lemma {:induction false} ToDigitsAt(v: nat, n: nat, base: nat, j: nat)
    requires base >= 2 && j < n
    ensures ToDigits(v, n, base)[j] == (v / Pow(base, n - 1 - j)) % base
  {
    if j == n - 1 {
      ToDigitsStep(v, n, base);
      assert Pow(base, n - 1 - j) == 1;
    } else {
      ToDigitsAt(v / base, n - 1, base, j);
      ToDigitsAtStep(v, n, base, j);
    }
  }

  lemma ToDigitsAtStep(v: nat, n: nat, base: nat, j: nat)
    requires base >= 2 && j < n - 1
    requires ToDigits(v / base, n - 1, base)[j] == (v / base / Pow(base, n - 2 - j)) % base
    ensures ToDigits(v, n, base)[j] == (v / Pow(base, n - 1 - j)) % base
  {
    ToDigitsStep(v, n, base);
    DivDiv(v, base, Pow(base, n - 2 - j));
    assert Pow(base, n - 1 - j) == base * Pow(base, n - 2 - j);
  }
}

=== FILE: hotp.dfy ===
/**
 The HOTP value of section 5.3 of RFC 4226, as both TOTP classes compute it:
 the counter packed as 8 big-endian bytes, an HMAC-SHA1 digest of it under
 the decoded secret, dynamic truncation to a 31-bit number, and the last
 `digits` decimal digits of that number, zero-filled.

 HMAC-SHA1 is a parameter: any function from key and message to a 20-byte
 digest.
 */
module Hotp {
  import opened Wrappers
  import opened Digits
  import PyStr

  /** An HMAC-SHA1 digest: 20 bytes. */
  type Digest = d: seq<byte> | |d| == 20 witness seq(20, _ => 0 as byte)

  /** `hmac.new(key, message, sha1).digest()`. */
  type Hmac = (seq<byte>, seq<byte>) -> Digest

  /** `ValueError` for a negative counter, `OverflowError` from `int.to_bytes` for one of 2^64 or more. */
  datatype PackError = NegativeValue | ValueTooLarge

  const CounterLimit: nat := 0x1_0000_0000_0000_0000

  lemma CounterLimitIsPow()
    ensures Pow(256, 8) == CounterLimit
  {
  }

  /**
   `__custom_pack_q(value)`: `value.to_bytes(length=8, byteorder="big")`
   after rejecting negative values.
   */
  function PackCounter(v: int): (r: Result<seq<byte>, PackError>)
    ensures r.Success? <==> 0 <= v < CounterLimit
    ensures r == Failure(NegativeValue) <==> v < 0
    ensures r.Success? ==> |r.value| == 8 && FromDigits(r.value, 256) == v
  {
    CounterLimitIsPow();
    if v < 0 then Failure(NegativeValue)
    else if v >= CounterLimit then Failure(ValueTooLarge)
    else
      FromToDigits(v, 8, 256);
      Success(AsBytes(ToDigits(v, 8, 256)))
  }

  /** Every 8-byte message is the packing of the counter it spells. */
  lemma PackOfUnpack(bs: seq<byte>)
    requires |bs| == 8
    ensures PackCounter(FromDigits(bs, 256)) == Success(bs)
  {
    CounterLimitIsPow();
    FromDigitsBound(bs, 256);
    ToFromDigits(bs, 256);
  }

  /** `hmac_digest[-1] & 15`: a position from which four bytes still fit in the digest. */
  function Offset(d: Digest): (o: nat)
    ensures o < 16 && o + 4 <= |d|
  {
    d[19] % 16
  }

  /**
   Dynamic truncation: the four bytes at the offset as one big-endian number,
   the first one masked with 127. Bytes shifted into disjoint bit ranges are
   combined with `|`, which is addition here.
   */
  function Truncate(d: Digest): (t: nat)
    ensures t < 0x8000_0000
    ensures var o := Offset(d); t == FromDigits(d[o..o + 4], 256) % 0x8000_0000
  {
    var o := Offset(d);
    var b0, b1, b2, b3: nat := d[o], d[o + 1], d[o + 2], d[o + 3];
    var t := (b0 % 128) * 0x100_0000 + b1 * 0x1_0000 + b2 * 0x100 + b3;
    TruncateIsWordLowBits(d[o], d[o + 1], d[o + 2], d[o + 3]);
    assert d[o..o + 4] == [d[o], d[o + 1], d[o + 2], d[o + 3]];
    t
  }

  /** Four base-256 digits, most significant first. */
  lemma Word(a: nat, b: nat, c: nat, e: nat)
    ensures FromDigits([a, b, c, e], 256) == a * 0x100_0000 + b * 0x1_0000 + c * 0x100 + e
  {
    assert [a] == [] + [a] && [a, b] == [a] + [b];
    assert [a, b, c] == [a, b] + [c] && [a, b, c, e] == [a, b, c] + [e];
    FromDigitsSnoc([], a, 256);
    FromDigitsSnoc([a], b, 256);
    FromDigitsSnoc([a, b], c, 256);
    FromDigitsSnoc([a, b, c], e, 256);
  }

  /** Masking the first byte with 127 keeps the low 31 bits of the 32-bit word. */
  lemma TruncateIsWordLowBits(a: nat, b: nat, c: nat, e: nat)
    requires a < 256 && b < 256 && c < 256 && e < 256
    ensures (a % 128) * 0x100_0000 + b * 0x1_0000 + c * 0x100 + e
         == FromDigits([a, b, c, e], 256) % 0x8000_0000
    ensures (a % 128) * 0x100_0000 + b * 0x1_0000 + c * 0x100 + e < 0x8000_0000
  {
    Word(a, b, c, e);
    var low := (a % 128) * 0x100_0000 + b * 0x1_0000 + c * 0x100 + e;
    assert a * 0x100_0000 + b * 0x1_0000 + c * 0x100 + e == (a / 128) * 0x8000_0000 + low;
    DivModStep(a / 128, low, 0x8000_0000);
  }

  /**
   `str(truncated % 10**digits).zfill(digits)`: exactly `digits` decimal
   characters spelling the truncated value modulo `10^digits`; with no digits
   asked for, the modulus is 1 and the code is "0".
   */
  function FormatCode(t: nat, digits: nat): (code: string)
    ensures digits >= 1 ==> |code| == digits
    ensures PyStr.IsDecimal(code)
    ensures PyStr.ParseDecimal(code) == t % Pow(10, digits)
    ensures digits == 0 ==> code == "0"
  {
    var m := t % Pow(10, digits);
    var s := PyStr.Str(m);
    if digits >= 1 then
      PyStr.StrWidth(m, digits);
      PyStr.ZFillDecimal(s, digits);
      PyStr.ParseLeadingZeros(digits - |s|, s);
      PyStr.ZFill(s, digits)
    else
      PyStr.ZFill(s, digits)
  }

  /**
   The HOTP code of `counter` under `key`: fails exactly when the counter
   cannot be packed; otherwise it is `digits` decimal characters spelling the
   truncated digest of the packed counter modulo `10^digits`.
   */
  function HotpCode(key: seq<byte>, counter: int, digits: nat, hmac: Hmac): (r: Result<string, PackError>)
    ensures r.Success? <==> 0 <= counter < CounterLimit
    ensures r.Failure? ==> r == Failure(if counter < 0 then NegativeValue else ValueTooLarge)
    ensures r.Success? ==>
      && (digits >= 1 ==> |r.value| == digits)
      && (digits == 0 ==> r.value == "0")
      && PyStr.IsDecimal(r.value)
      && PyStr.ParseDecimal(r.value) == Truncate(hmac(key, PackCounter(counter).value)) % Pow(10, digits)
  {
    var message :- PackCounter(counter);
    Success(FormatCode(Truncate(hmac(key, message)), digits))
  }

  // ---------------------------------------------------------------------------
  // Test values of RFC 4226

  /** The digest of the worked example in section 5.4 of RFC 4226. */
  const Section54Digest: Digest := [
    0x1f, 0x86, 0x98, 0x69, 0x0e, 0x02, 0xca, 0x16, 0x61, 0x85,
    0x50, 0xef, 0x7f, 0x19, 0xda, 0x8e, 0x94, 0x5b, 0x55, 0x5a]

  /** Section 5.4 of RFC 4226: offset 10, value 0x50ef7f19, 6-digit code 872921. */
  lemma Section54Example()
    ensures Offset(Section54Digest) == 10
    ensures Truncate(Section54Digest) == 0x50ef7f19
    ensures FormatCode(Truncate(Section54Digest), 6) == "872921"
  {
    var d := Section54Digest;
    assert d[10] == 0x50 && d[11] == 0xef && d[12] == 0x7f && d[13] == 0x19;
    Code872921();
  }

  lemma Code872921()
    ensures FormatCode(0x50ef7f19, 6) == "872921"
  {
    assert Pow(10, 6) == 1_000_000;
    ParseSixDigits('8', '7', '2', '9', '2', '1');
    CodeOf(0x50ef7f19, 6, "872921");
  }

  /** The digests for counts 0 and 1 in Appendix D of RFC 4226. */
  const AppendixDDigest0: Digest := [
    0xcc, 0x93, 0xcf, 0x18, 0x50, 0x8d, 0x94, 0x93, 0x4c, 0x64,
    0xb6, 0x5d, 0x8b, 0xa7, 0x66, 0x7f, 0xb7, 0xcd, 0xe4, 0xb0]

  const AppendixDDigest1: Digest := [
    0x75, 0xa4, 0x8a, 0x19, 0xd4, 0xcb, 0xe1, 0x00, 0x64, 0x4e,
    0x8a, 0xc1, 0x39, 0x7e, 0xea, 0x74, 0x7a, 0x2d, 0x33, 0xab]

  /** Appendix D of RFC 4226, count 0: truncated 0x4c93cf18, HOTP 755224. */
  lemma AppendixDCount0(key: seq<byte>, hmac: Hmac)
    requires hmac(key, [0, 0, 0, 0, 0, 0, 0, 0]) == AppendixDDigest0
    ensures HotpCode(key, 0, 6, hmac) == Success("755224")
  {
    PackZero();
    TruncateDigest0();
    assert Pow(10, 6) == 1_000_000;
    ParseSixDigits('7', '5', '5', '2', '2', '4');
    CodeOf(0x4c93cf18, 6, "755224");
  }

  /** Appendix D of RFC 4226, count 1: truncated 0x41397eea, HOTP 287082. */
  lemma AppendixDCount1(key: seq<byte>, hmac: Hmac)
    requires hmac(key, [0, 0, 0, 0, 0, 0, 0, 1]) == AppendixDDigest1
    ensures HotpCode(key, 1, 6, hmac) == Success("287082")
  {
    PackOne();
    TruncateDigest1();
    assert Pow(10, 6) == 1_000_000;
    ParseSixDigits('2', '8', '7', '0', '8', '2');
    CodeOf(0x41397eea, 6, "287082");
  }

  lemma PackZero()
    ensures PackCounter(0) == Success([0, 0, 0, 0, 0, 0, 0, 0])
  {
    ToDigitsOfZero(8, 256);
    assert Zeros(8) == [0, 0, 0, 0, 0, 0, 0, 0];
  }

  lemma PackOne()
    ensures PackCounter(1) == Success([0, 0, 0, 0, 0, 0, 0, 1])
  {
    assert Pow(256, 1) == 256;
    ToDigitsLeadingZeros(1, 1, 7, 256);
    assert Zeros(7) + ToDigits(1, 1, 256) == [0, 0, 0, 0, 0, 0, 0, 1];
  }

  lemma TruncateDigest0()
    ensures Truncate(AppendixDDigest0) == 0x4c93cf18
  {
    var d := AppendixDDigest0;
    assert d[19] == 0xb0 && d[0] == 0xcc && d[1] == 0x93 && d[2] == 0xcf && d[3] == 0x18;
  }

  lemma TruncateDigest1()
    ensures Truncate(AppendixDDigest1) == 0x41397eea
  {
    var d := AppendixDDigest1;
    assert d[19] == 0xab && d[11] == 0xc1 && d[12] == 0x39 && d[13] == 0x7e && d[14] == 0xea;
  }

  /** The code is the only `digits`-character decimal string with the right value. */
  lemma CodeOf(t: nat, digits: nat, s: string)
    requires digits >= 1 && |s| == digits && PyStr.IsDecimal(s)
    requires PyStr.ParseDecimal(s) == t % Pow(10, digits)
    ensures FormatCode(t, digits) == s
  {
    PyStr.ParseDecimalInjective(FormatCode(t, digits), s);
  }

  /** The value of a six-character decimal string, digit by digit. */
  lemma ParseSixDigits(a: char, b: char, c: char, d: char, e: char, f: char)
    requires PyStr.IsDecimalDigit(a) && PyStr.IsDecimalDigit(b) && PyStr.IsDecimalDigit(c)
    requires PyStr.IsDecimalDigit(d) && PyStr.IsDecimalDigit(e) && PyStr.IsDecimalDigit(f)
    ensures PyStr.IsDecimal([a, b, c, d, e, f])
    ensures PyStr.ParseDecimal([a, b, c, d, e, f])
         == ((((Val(a) * 10 + Val(b)) * 10 + Val(c)) * 10 + Val(d)) * 10 + Val(e)) * 10 + Val(f)
  {
    assert [a] == [] + [a] && [a, b] == [a] + [b] && [a, b, c] == [a, b] + [c];
    assert [a, b, c, d] == [a, b, c] + [d] && [a, b, c, d, e] == [a, b, c, d] + [e];
    assert [a, b, c, d, e, f] == [a, b, c, d, e] + [f];
    PyStr.ParseDecimalSnoc([], a);
    PyStr.ParseDecimalSnoc([a], b);
    PyStr.ParseDecimalSnoc([a, b], c);
    PyStr.ParseDecimalSnoc([a, b, c], d);
    PyStr.ParseDecimalSnoc([a, b, c, d], e);
    PyStr.ParseDecimalSnoc([a, b, c, d, e], f);
  }

  function Val(c: char): int {
    c as int - '0' as int
  }
}

=== FILE: legacy_totp.dfy ===
/**
 The older, dependency-free `TOTP` class of main.py: a hand-written Base32
 decoder, the same counter packing and truncation as totp.py, and a counter
 fixed when the object is made.

 The decoder reads each 8-character chunk into one accumulator, 5 bits per
 alphabet symbol, and emits the accumulator's 5 bytes. It differs from
 section 6 of RFC 4648 in two ways, both modelled as written: a `=` adds 5 to
 the accumulator instead of shifting it, and bytes equal to zero are left
 out of the output.
 */
module LegacyTotp {
  import opened Wrappers
  import opened Digits
  import PyStr
  import Seqs
  import Base32
  import Totp
  import opened Hotp

  /** `TIME_STEP`. */
  const TimeStep: nat := 30

  // ---------------------------------------------------------------------------
  // The decoder

  /**
   `encoded_str.upper().strip()`, then `=` up to the next multiple of 8:
   `"=" * (8 - len % 8)` when `len % 8` is not zero is the same padding
   `Totp.PadSecret` adds.
   */
  function Prepare(s: string): (p: string)
    ensures |p| % 8 == 0
    ensures var u := PyStr.Strip(PyStr.Upper(s));
      && |u| <= |p| < |u| + 8
      && p == u + PyStr.Repeat(Base32.PadChar, |p| - |u|)
      && (|u| % 8 == 0 ==> p == u)
  {
    Totp.PadSecret(PyStr.Strip(PyStr.Upper(s)))
  }

  /** A character the decoder accepts: padding, or a symbol `BASE32_ALPHABET.index` finds. */
  predicate Decodable(c: char) {
    c == Base32.PadChar || Base32.IsSymbol(c)
  }

  predicate AllDecodable(s: string) {
    forall i :: 0 <= i < |s| ==> Decodable(s[i])
  }

  /** `BASE32_ALPHABET.index(c)` is the symbol's value, and fails on any other character. */
  lemma AlphabetIndex(c: char)
    ensures Seqs.IndexOf(Base32.Alphabet, c) == Base32.SymbolValue(c)
  {
    Base32.AlphabetIsSymbolChars();
    var r := Seqs.IndexOf(Base32.Alphabet, c);
    if r.Some? {
      Base32.SymbolValueOfChar(r.value);
    }
  }

  /**
   The accumulator after the characters of `chunk`: a `=` adds 5, a symbol
   is shifted in as `(bits << 5) | index`, which is `bits * 32 + index` since
   the index is below 32. `None` is the `ValueError` of `index` on any other
   character.
   */
  function ChunkBits(chunk: string): (r: Option<nat>)
    ensures r.Some? <==> AllDecodable(chunk)
    ensures r.Some? ==> r.value < Pow(32, |chunk|)
  {
    if |chunk| == 0 then Some(0)
    else
      var init, c := chunk[..|chunk| - 1], chunk[|chunk| - 1];
      AllDecodableSnoc(chunk);
      match ChunkBits(init)
      case None => None
      case Some(bits) => ShiftIn(bits, c, |init|)
  }

  /**
   One character into an accumulator of `k` characters. The symbol's value
   is written `SymbolValue(c)`; `AlphabetIndex` shows it is the position
   `BASE32_ALPHABET.index(c)` returns.
   */
  function ShiftIn(bits: nat, c: char, k: nat): (r: Option<nat>)
    requires bits < Pow(32, k)
    ensures r.Some? <==> Decodable(c)
    ensures r.Some? ==> r.value < Pow(32, k + 1)
  {
    PowStep(32, k + 1);
    if c == Base32.PadChar then
      DigitBound(bits, 5, Pow(32, k), 32);
      Some(bits + 5)
    else
      match Base32.SymbolValue(c)
      case None => None
      case Some(v) =>
        DigitBound(bits, v, Pow(32, k), 32);
        Some(bits * 32 + v)
  }

  lemma AllDecodableSnoc(s: string)
    requires |s| > 0
    ensures AllDecodable(s) <==> AllDecodable(s[..|s| - 1]) && Decodable(s[|s| - 1])
  {
    if AllDecodable(s[..|s| - 1]) && Decodable(s[|s| - 1]) {
      forall i | 0 <= i < |s| ensures Decodable(s[i]) {
        if i < |s| - 1 {
          assert s[i] == s[..|s| - 1][i];
        }
      }
    }
  }

  /** `(bits >> (8 * (4 - j))) & 0xFF`. */
  function ShiftedByte(bits: nat, j: nat): byte
    requires j < 5
  {
    (bits / Pow(2, 8 * (4 - j))) % 256
  }

  /** The five shifted bytes of an accumulator are its five big-endian base-256 digits. */
  lemma ShiftedBytesAreDigits(bits: nat)
    ensures seq(5, j requires 0 <= j < 5 => ShiftedByte(bits, j)) == ToDigits(bits, 5, 256)
  {
    assert Pow(2, 0) == Pow(256, 0) && Pow(2, 8) == Pow(256, 1) && Pow(2, 16) == Pow(256, 2);
    assert Pow(2, 24) == Pow(256, 3) && Pow(2, 32) == Pow(256, 4);
    forall j | 0 <= j < 5
      ensures ShiftedByte(bits, j) == ToDigits(bits, 5, 256)[j]
    {
      ToDigitsAt(bits, 5, 256, j);
    }
  }

  /** `bs` without its zero bytes, the others kept in order. */
  function NonZero(bs: seq<byte>): (r: seq<byte>)
    ensures |r| <= |bs|
    ensures forall i :: 0 <= i < |r| ==> r[i] != 0
    ensures forall b :: b in r <==> b in bs && b != 0
  {
    if |bs| == 0 then []
    else (if bs[0] != 0 then [bs[0]] else []) + NonZero(bs[1..])
  }

  lemma {:induction false} NonZeroAppend(a: seq<byte>, b: seq<byte>)
    ensures NonZero(a + b) == NonZero(a) + NonZero(b)
  {
    if |a| > 0 {
      assert (a + b)[1..] == a[1..] + b;
      NonZeroAppend(a[1..], b);
    } else {
      assert a + b == b;
    }
  }

  /** The five shifted bytes of a chunk's accumulator, the zero ones left out. */
  function ChunkBytes(bits: nat): (bs: seq<byte>)
    ensures bs == NonZero(AsBytes(ToDigits(bits, 5, 256)))
  {
    ShiftedBytesAreDigits(bits);
    NonZero(seq(5, j requires 0 <= j < 5 => ShiftedByte(bits, j)))
  }

  /** The chunks of a prepared string, in order; `None` if any character is rejected. */
  function DecodeChunks(p: string): (r: Option<seq<byte>>)
    requires |p| % 8 == 0
    ensures r.Some? <==> AllDecodable(p)
    ensures r.Some? ==> |r.value| <= 5 * (|p| / 8)
    ensures r.Some? ==> forall i :: 0 <= i < |r.value| ==> r.value[i] != 0
    decreases |p|
  {
    if |p| == 0 then Some([])
    else
      Base32.GroupStep(|p|);
      assert p == p[..8] + p[8..];
      match ChunkBits(p[..8])
      case None => None
      case Some(bits) =>
        match DecodeChunks(p[8..])
        case None =>
          assert !AllDecodable(p[8..]);
          None
        case Some(rest) =>
          Some(ChunkBytes(bits) + rest)
  }

  /** `__b32decode(encoded_str)`; `None` is the `ValueError` raised for a character outside the alphabet. */
  function B32Decode(s: string): (r: Option<seq<byte>>)
    ensures r.Some? <==> AllDecodable(Prepare(s))
    ensures r.Some? ==> |r.value| <= 5 * (|Prepare(s)| / 8)
    ensures r.Some? ==> forall i :: 0 <= i < |r.value| ==> r.value[i] != 0
  {
    DecodeChunks(Prepare(s))
  }

  // ---------------------------------------------------------------------------
  // Agreement with RFC 4648 on unpadded input

  /** Symbols only: the accumulator is the chunk's value as base-32 digits. */
  lemma {:induction false} ChunkBitsOfSymbols(q: string)
    requires Base32.IsSymbols(q)
    ensures ChunkBits(q) == Some(FromDigits(Base32.Values(q), 32))
  {
    if |q| > 0 {
      var init, c := q[..|q| - 1], q[|q| - 1];
      assert Base32.IsSymbols(init);
      ChunkBitsOfSymbols(init);
      var vs := Base32.Values(q);
      assert vs[..|q| - 1] == Base32.Values(init);
      var bits := FromDigits(vs[..|q| - 1], 32);
      assert Base32.SymbolValue(c) == Some(vs[|q| - 1]);
      ShiftInSymbol(bits, c, |init|, vs[|q| - 1]);
      assert ChunkBits(q) == ShiftIn(bits, c, |init|);
      assert FromDigits(vs, 32) == bits * 32 + vs[|q| - 1];
    } else {
      assert |Base32.Values(q)| == 0;
    }
  }

  lemma ShiftInSymbol(bits: nat, c: char, k: nat, v: nat)
    requires bits < Pow(32, k) && Base32.SymbolValue(c) == Some(v)
    ensures ShiftIn(bits, c, k) == Some(bits * 32 + v)
  {
  }

  /**
   On a string of whole chunks of alphabet symbols the decoder gives the
   RFC 4648 decoding with its zero bytes removed.
   */
  lemma {:induction false} DecodeChunksOfSymbols(p: string)
    requires |p| % 8 == 0 && Base32.IsSymbols(p)
    ensures DecodeChunks(p) == Some(NonZero(Base32.DecodeBody(p)))
    decreases |p|
  {
    if |p| > 0 {
      Base32.GroupStep(|p|);
      assert Base32.IsSymbols(p[..8]) && Base32.IsSymbols(p[8..]);
      ChunkBitsOfSymbols(p[..8]);
      DecodeChunksOfSymbols(p[8..]);
      NonZeroAppend(Base32.DecodeGroup(p[..8]), Base32.DecodeBody(p[8..]));
    }
  }

  /**
   When the prepared secret is all alphabet symbols, the standard decoder
   accepts it and this one returns the same bytes except the zero ones.
   */
  lemma AgreesWithRfcWithoutPadding(s: string)
    requires Base32.IsSymbols(Prepare(s))
    ensures Base32.Decode(Prepare(s)).Success?
    ensures B32Decode(s) == Some(NonZero(Base32.Decode(Prepare(s)).value))
  {
    var p := Prepare(s);
    PyStr.UpperOfUpper(p);
    assert Base32.PaddingLength(p) == 0;
    assert p[..|p| - 0] == p;
    DecodeChunksOfSymbols(p);
  }

  // ---------------------------------------------------------------------------
  // Where it departs from RFC 4648

  /** "ME======" is the encoding of the single byte 0x61; this decoder reads 0x01 0xa2. */
  lemma PaddingAddsFive()
    ensures B32Decode("ME======") == Some([0x01, 0xa2])
    ensures Base32.Decode("ME======") == Success([0x61])
  {
    LegacyME("ME======");
    DecodeME();
  }

  /** "AAAAAAAA" is the encoding of five zero bytes; this decoder reads nothing. */
  lemma ZeroBytesDropped()
    ensures B32Decode("AAAAAAAA") == Some([])
    ensures Base32.Decode("AAAAAAAA") == Success([0, 0, 0, 0, 0])
  {
    LegacyAs("AAAAAAAA");
    DecodeAs("AAAAAAAA");
  }

  lemma LegacyME(p: string)
    requires p == "ME======"
    ensures B32Decode(p) == Some([0x01, 0xa2])
  {
    assert AllDecodable(p);
    PrepareAligned(p);
    ChunksME(p);
  }

  lemma ChunksME(p: string)
    requires p == "ME======"
    ensures DecodeChunks(p) == Some([0x01, 0xa2])
  {
    ChunkME();
    OneChunk(p, 418);
    BytesOf418();
  }

  lemma BytesOf418()
    ensures ChunkBytes(418) == [0x01, 0xa2]
  {
    assert ToDigits(418, 5, 256) == [0, 0, 0, 1, 0xa2];
    assert NonZero([0, 0, 0, 1, 0xa2]) == [0x01, 0xa2];
  }

  lemma LegacyAs(p: string)
    requires p == "AAAAAAAA"
    ensures B32Decode(p) == Some([])
  {
    assert AllDecodable(p);
    PrepareAligned(p);
    ChunksAs(p);
  }

  lemma ChunksAs(p: string)
    requires p == "AAAAAAAA"
    ensures DecodeChunks(p) == Some([])
  {
    assert ChunkBits(p) == Some(0) by {
      assert Base32.IsSymbols(p);
      ChunkBitsOfSymbols(p);
      assert Base32.Values(p) == Zeros(8);
      FromDigitsOfZeros(8, 32);
    }
    OneChunk(p, 0);
    assert ChunkBytes(0) == [] by {
      ToDigitsOfZero(5, 256);
      assert Zeros(5) == [0, 0, 0, 0, 0];
      assert NonZero([0, 0, 0, 0, 0]) == [];
    }
  }

  /** A single chunk decodes to the bytes of its accumulator. */
  lemma OneChunk(p: string, bits: nat)
    requires |p| == 8 && ChunkBits(p) == Some(bits)
    ensures DecodeChunks(p) == Some(ChunkBytes(bits))
  {
    assert p[..8] == p;
    assert DecodeChunks(p[8..]) == Some([]);
    assert ChunkBytes(bits) + [] == ChunkBytes(bits);
  }

  lemma DecodeAs(p: string)
    requires p == "AAAAAAAA"
    ensures Base32.Decode(p) == Success([0, 0, 0, 0, 0])
  {
    assert Base32.IsSymbols(p);
    PyStr.UpperOfUpper(p);
    assert Base32.PaddingLength(p) == 0;
    assert p[..|p| - 0] == p;
    assert Base32.Values(p) == Zeros(8);
    FromDigitsOfZeros(8, 32);
    ToDigitsOfZero(5, 256);
    assert p[..8] == p && p[8..] == [];
    assert Base32.DecodeGroup(p) == Zeros(5);
    assert Base32.DecodeBody(p) == Zeros(5) + [];
    assert Zeros(5) + [] == [0, 0, 0, 0, 0];
    assert Base32.DecodeFolded(p) == Success([0, 0, 0, 0, 0]);
  }

  lemma FromDigitsOfZeros(n: nat, base: nat)
    ensures FromDigits(Zeros(n), base) == 0
  {
    if n > 0 {
      assert Zeros(n)[..n - 1] == Zeros(n - 1);
      FromDigitsOfZeros(n - 1, base);
    }
  }

  /** Input of a multiple of 8 characters the decoder accepts is decoded as it is. */
  lemma PrepareAligned(s: string)
    requires |s| % 8 == 0
    requires AllDecodable(s)
    ensures Prepare(s) == s
    ensures B32Decode(s) == DecodeChunks(s)
  {
    UpperDecodable(s);
    StripDecodable(s);
  }

  lemma UpperDecodable(s: string)
    requires AllDecodable(s)
    ensures PyStr.Upper(s) == s
  {
    forall i | 0 <= i < |s| ensures !PyStr.IsAsciiLower(s[i]) {
      assert Decodable(s[i]);
    }
    PyStr.UpperOfUpper(s);
  }

  lemma StripDecodable(s: string)
    requires AllDecodable(s)
    ensures PyStr.Strip(s) == s
  {
    if |s| > 0 {
      NotSpace(s[0]);
      NotSpace(s[|s| - 1]);
    }
    PyStr.StripUnspaced(s);
  }

  lemma NotSpace(c: char)
    requires Decodable(c)
    ensures !PyStr.IsSpace(c)
  {
  }

  /** Each `=` after the symbols of a chunk adds 5 to its accumulator. */
  lemma {:induction false} ChunkBitsPadded(s: string, n: nat)
    requires AllDecodable(s)
    ensures ChunkBits(s + PyStr.Repeat(Base32.PadChar, n)) == Some(ChunkBits(s).value + 5 * n)
  {
    var bits := ChunkBits(s).value;
    if n == 0 {
      assert s + PyStr.Repeat(Base32.PadChar, 0) == s;
    } else {
      var init := s + PyStr.Repeat(Base32.PadChar, n - 1);
      ChunkBitsPadded(s, n - 1);
      assert s + PyStr.Repeat(Base32.PadChar, n) == init + [Base32.PadChar];
      PadOne(init, bits + 5 * (n - 1));
    }
  }

  lemma PadOne(init: string, bits: nat)
    requires ChunkBits(init) == Some(bits)
    ensures ChunkBits(init + [Base32.PadChar]) == Some(bits + 5)
  {
    ChunkBitsSnoc(init, Base32.PadChar);
    ShiftInPad(bits, |init|);
  }

  /** One more character: the recursion of `ChunkBits`, stated for `s + [c]`. */
  lemma ChunkBitsSnoc(s: string, c: char)
    ensures ChunkBits(s + [c]) == if ChunkBits(s).None? then None else ShiftIn(ChunkBits(s).value, c, |s|)
  {
    var t := s + [c];
    assert t[..|t| - 1] == s;
  }

  lemma ShiftInPad(bits: nat, k: nat)
    requires bits < Pow(32, k)
    ensures ShiftIn(bits, Base32.PadChar, k) == Some(bits + 5)
  {
  }

  lemma ChunkME()
    ensures ChunkBits("ME======") == Some(418)
  {
    Base32.SymbolValueOfChar(12);
    Base32.SymbolValueOfChar(4);
    assert Base32.SymbolChar(12) == 'M' && Base32.SymbolChar(4) == 'E';
    assert "ME"[..1] == "M" && "M"[..0] == "";
    ShiftInSymbol(0, 'M', 0, 12);
    assert ChunkBits("M") == Some(12);
    ShiftInSymbol(12, 'E', 1, 4);
    assert ChunkBits("ME") == Some(388);
    Padded6();
    ChunkBitsPadded("ME", 6);
  }

  lemma Padded6()
    ensures "ME======" == "ME" + PyStr.Repeat(Base32.PadChar, 6)
  {
    var r := PyStr.Repeat(Base32.PadChar, 6);
    assert r == "======" by {
      assert r[0] == '=' && r[1] == '=' && r[2] == '=' && r[3] == '=' && r[4] == '=' && r[5] == '=';
    }
  }

  lemma DecodeME()
    ensures Base32.Decode("ME======") == Success([0x61])
  {
    var s := "ME======";
    assert PyStr.Upper(s) == s by {
      PyStr.UpperOfUpper(s);
    }
    assert Base32.PaddingLength(s) == 6 by {
      Padded6();
      Base32.PaddingLengthOfPadded("ME", 6);
    }
    assert s[..8 - 6] == "ME";
    BodyME();
  }

  /** The two symbols before the padding of "ME======" carry the byte 0x61. */
  lemma BodyME()
    ensures Base32.IsSymbols("ME")
    ensures Base32.DecodeBody("ME") == [0x61]
  {
    ValuesME();
    var v := FromDigits(Base32.Values("ME"), 32);
    assert v == 388 by {
      Value388();
    }
    var ds := ToDigits(v * Pow(32, 6), 5, 256);
    assert ds == [0x61, 0, 0, 0, 0] by {
      assert Pow(32, 6) == 0x4000_0000;
      Spelled0x61();
    }
    assert Base32.DecodePartialGroup("ME") == ds[..1];
  }

  lemma Value388()
    ensures FromDigits([12, 4], 32) == 388
  {
    assert [12, 4][..1] == [12];
    assert [12][..0] == [];
    assert FromDigits([12], 32) == 12;
  }

  lemma Spelled0x61()
    ensures ToDigits(388 * 0x4000_0000, 5, 256) == [0x61, 0, 0, 0, 0]
  {
  }

  lemma ValuesME()
    ensures Base32.IsSymbols("ME") && Base32.Values("ME") == [12, 4]
  {
    Base32.SymbolValueOfChar(12);
    Base32.SymbolValueOfChar(4);
    assert Base32.SymbolChar(12) == 'M' && Base32.SymbolChar(4) == 'E';
  }

  // ---------------------------------------------------------------------------
  // The object

  /** The exceptions `__get_hotp` raises. */
  datatype LegacyError = SymbolNotFound | BadCounter(pack: PackError)

  /** The state of a main.py `TOTP` object (the `adjusted_time` branch is not modelled). */
  datatype LegacyTotp = LegacyTotp(secret: string, digits: nat, counter: nat)

  /** `TOTP(secret, digits)` at time `now`: the counter is the number of whole 30-second steps. */
  function New(secret: string, digits: nat, now: nat): (t: LegacyTotp)
    ensures t.secret == secret && t.digits == digits
    ensures t.counter * TimeStep <= now < (t.counter + 1) * TimeStep
    ensures t.counter == Totp.Counter(now)
  {
    LegacyTotp(secret, digits, now / TimeStep)
  }

  /**
   `__get_hotp`: pad the upper-cased secret by its length, decode it with
   `B32Decode`, then compute the HOTP code of the counter.
   */
  function GetHotp(secret: string, counter: nat, digits: nat, hmac: Hmac): (r: Result<string, LegacyError>)
    ensures var key := B32Decode(Totp.PadSecret(PyStr.Upper(secret)));
      && (key.None? ==> r == Failure(SymbolNotFound))
      && (key.Some? ==> (r.Success? <==> counter < CounterLimit))
      && (key.Some? && r.Failure? ==> r == Failure(BadCounter(ValueTooLarge)))
      && (r.Success? ==> key.Some? && Totp.Ok(r.value, key.value, counter, digits, hmac))
  {
    match B32Decode(Totp.PadSecret(PyStr.Upper(secret)))
    case None => Failure(SymbolNotFound)
    case Some(key) =>
      match HotpCode(key, counter, digits, hmac)
      case Failure(e) => Failure(BadCounter(e))
      case Success(code) => Success(code)
  }

  /**
   `get_totp`: the code of the counter fixed at construction; no clock is
   read, so every call gives the code of that one time step.
   */
  function GetTotp(t: LegacyTotp, hmac: Hmac): (r: Result<string, LegacyError>)
    ensures var key := B32Decode(Totp.PadSecret(PyStr.Upper(t.secret)));
      && (r == Failure(SymbolNotFound) <==> key.None?)
      && (key.Some? ==> (r.Success? <==> t.counter < CounterLimit))
      && (key.Some? && r.Failure? ==> r == Failure(BadCounter(ValueTooLarge)))
      && (r.Success? ==> key.Some? && Totp.Ok(r.value, key.value, t.counter, t.digits, hmac))
  {
    GetHotp(t.secret, t.counter, t.digits, hmac)
  }
}

=== FILE: pystr.dfy ===
/**
 The Python `str` operations the TOTP code and the secrets file rely on:
 `upper`, `lower`, `strip`, `zfill`, `str(int)` and the `<` order on strings.
 Case mapping covers ASCII letters only.
 */
module PyStr {
  import Digits

  function Repeat(c: char, n: nat): (s: string)
    ensures |s| == n
    ensures forall i :: 0 <= i < n ==> s[i] == c
  {
    seq(n, _ => c)
  }

  // ---------------------------------------------------------------------------
  // Case mapping

  predicate IsAsciiLower(c: char) {
    'a' <= c <= 'z'
  }

  predicate IsAsciiUpper(c: char) {
    'A' <= c <= 'Z'
  }

  function UpperChar(c: char): (u: char)
    ensures !IsAsciiLower(u)
    ensures IsAsciiLower(c) ==> IsAsciiUpper(u) && u as int == c as int - 32
    ensures !IsAsciiLower(c) ==> u == c
  {
    if IsAsciiLower(c) then (c as int - 32) as char else c
  }

  function LowerChar(c: char): (l: char)
    ensures !IsAsciiUpper(l)
    ensures IsAsciiUpper(c) ==> IsAsciiLower(l) && l as int == c as int + 32
    ensures !IsAsciiUpper(c) ==> l == c
  {
    if IsAsciiUpper(c) then (c as int + 32) as char else c
  }

  /** `str.upper()`: same length, every ASCII lower-case letter replaced by its capital. */
  function Upper(s: string): (u: string)
    ensures |u| == |s|
    ensures forall i :: 0 <= i < |s| ==> u[i] == UpperChar(s[i])
  {
    seq(|s|, i requires 0 <= i < |s| => UpperChar(s[i]))
  }

  /** `str.lower()`: same length, every ASCII capital replaced by its lower-case letter. */
  function Lower(s: string): (l: string)
    ensures |l| == |s|
    ensures forall i :: 0 <= i < |s| ==> l[i] == LowerChar(s[i])
  {
    seq(|s|, i requires 0 <= i < |s| => LowerChar(s[i]))
  }

  /** A string without lower-case letters is its own upper-case form. */
  lemma UpperOfUpper(s: string)
    requires forall i :: 0 <= i < |s| ==> !IsAsciiLower(s[i])
    ensures Upper(s) == s
  {
  }

  // ---------------------------------------------------------------------------
  // Whitespace stripping

  /** The characters `str.isspace()` accepts, which `str.strip()` removes. */
  const Whitespace: set<char> := {
      '\U{9}', '\U{a}', '\U{b}', '\U{c}', '\U{d}', '\U{1c}', '\U{1d}', '\U{1e}',
      '\U{1f}', ' ', '\U{85}', '\U{a0}', '\U{1680}', '\U{2000}', '\U{2001}', '\U{2002}',
      '\U{2003}', '\U{2004}', '\U{2005}', '\U{2006}', '\U{2007}', '\U{2008}', '\U{2009}', '\U{200a}',
      '\U{2028}', '\U{2029}', '\U{202f}', '\U{205f}', '\U{3000}'
    }

  predicate IsSpace(c: char) {
    c in Whitespace
  }

  /** The number of whitespace characters `s` starts with. */
  function LeadingSpaces(s: string): (n: nat)
    ensures n <= |s|
    ensures forall i :: 0 <= i < n ==> IsSpace(s[i])
    ensures n < |s| ==> !IsSpace(s[n])
  {
    if |s| > 0 && IsSpace(s[0]) then 1 + LeadingSpaces(s[1..]) else 0
  }

  /** The number of whitespace characters `s` ends with. */
  function TrailingSpaces(s: string): (n: nat)
    ensures n <= |s|
    ensures forall i :: |s| - n <= i < |s| ==> IsSpace(s[i])
    ensures n < |s| ==> !IsSpace(s[|s| - n - 1])
  {
    if |s| > 0 && IsSpace(s[|s| - 1]) then 1 + TrailingSpaces(s[..|s| - 1]) else 0
  }

  /**
   `str.strip()`: the infix between the leading and the trailing whitespace;
   everything outside it is whitespace and it neither starts nor ends with any.
   */
  function Strip(s: string): (r: string)
    ensures LeadingSpaces(s) + |r| <= |s|
    ensures r == s[LeadingSpaces(s)..LeadingSpaces(s) + |r|]
    ensures forall i :: 0 <= i < LeadingSpaces(s) ==> IsSpace(s[i])
    ensures forall i :: LeadingSpaces(s) + |r| <= i < |s| ==> IsSpace(s[i])
    ensures |r| > 0 ==> !IsSpace(r[0]) && !IsSpace(r[|r| - 1])
  {
    var k := LeadingSpaces(s);
    var n := |s| - k - TrailingSpaces(s[k..]);
    StripEnds(s, k, n);
    s[k..k + n]
  }

  lemma StripEnds(s: string, k: nat, n: nat)
    requires k == LeadingSpaces(s) && k <= |s|
    requires n == |s| - k - TrailingSpaces(s[k..])
    ensures forall i :: k + n <= i < |s| ==> IsSpace(s[i])
    ensures n > 0 ==> !IsSpace(s[k]) && !IsSpace(s[k + n - 1])
  {
    SuffixSpaces(s, k, n);
    if n > 0 {
      assert s[k + n - 1] == s[k..][n - 1];
    }
  }

  /** A string that neither starts nor ends with whitespace is its own strip. */
  lemma StripUnspaced(s: string)
    requires |s| > 0 ==> !IsSpace(s[0]) && !IsSpace(s[|s| - 1])
    ensures Strip(s) == s
  {
    assert LeadingSpaces(s) == 0;
    assert s[0..] == s;
    assert TrailingSpaces(s) == 0;
  }

  /** Whitespace at the end of the suffix `s[k..]` is whitespace at the end of `s`. */
  lemma SuffixSpaces(s: string, k: nat, n: nat)
    requires k + n <= |s|
    requires forall j :: n <= j < |s| - k ==> IsSpace(s[k..][j])
    ensures forall i :: k + n <= i < |s| ==> IsSpace(s[i])
  {
    forall i | k + n <= i < |s| ensures IsSpace(s[i]) {
      assert s[i] == s[k..][i - k];
    }
  }

  // ---------------------------------------------------------------------------
  // Decimal text

  predicate IsDecimalDigit(c: char) {
    '0' <= c <= '9'
  }

  predicate IsDecimal(s: string) {
    forall i :: 0 <= i < |s| ==> IsDecimalDigit(s[i])
  }

  function DigitChar(d: nat): (c: char)
    requires d < 10
    ensures IsDecimalDigit(c)
  {
    ('0' as int + d) as char
  }

  /** The number a string of decimal digits denotes (Python's `int(s)`). */
  function ParseDecimal(s: string): nat
    requires IsDecimal(s)
  {
    if |s| == 0 then 0
    else ParseDecimal(s[..|s| - 1]) * 10 + (s[|s| - 1] as int - '0' as int)
  }

  /** `str(n)` for a non-negative integer: its shortest decimal spelling. */
  function Str(n: nat): (s: string)
    ensures |s| >= 1 && IsDecimal(s)
    ensures ParseDecimal(s) == n
    ensures |s| > 1 ==> s[0] != '0'
  {
    if n < 10 then [DigitChar(n)]
    else
      var p := Str(n / 10);
      assert (p + [DigitChar(n % 10)])[..|p|] == p;
      p + [DigitChar(n % 10)]
  }

  /**
   `str.zfill(width)`: left-pads with '0' to `width` characters, keeping a
   leading sign in front; a string already that wide is returned unchanged.
   */
  function ZFill(s: string, width: nat): (r: string)
    ensures |r| == if |s| >= width then |s| else width
  {
    if |s| >= width then s
    else
      var fill := Repeat('0', width - |s|);
      if |s| > 0 && (s[0] == '+' || s[0] == '-') then [s[0]] + fill + s[1..] else fill + s
  }

  /** Appending a digit multiplies the value by ten and adds the digit. */
  lemma ParseDecimalSnoc(s: string, c: char)
    requires IsDecimal(s) && IsDecimalDigit(c)
    ensures IsDecimal(s + [c])
    ensures ParseDecimal(s + [c]) == ParseDecimal(s) * 10 + (c as int - '0' as int)
  {
    assert (s + [c])[..|s|] == s;
  }

  /** Two decimal strings of one length that denote the same number are equal. */
  lemma {:induction false} ParseDecimalInjective(s: string, t: string)
    requires IsDecimal(s) && IsDecimal(t) && |s| == |t|
    requires ParseDecimal(s) == ParseDecimal(t)
    ensures s == t
  {
    if |s| > 0 {
      var n := |s| - 1;
      var ds, dt := s[n] as int - '0' as int, t[n] as int - '0' as int;
      Digits.DivModStep(ParseDecimal(s[..n]), ds, 10);
      Digits.DivModStep(ParseDecimal(t[..n]), dt, 10);
      ParseDecimalInjective(s[..n], t[..n]);
      assert s == s[..n] + [s[n]] && t == t[..n] + [t[n]];
    }
  }

  /** A number below `10^d`, for `d >= 1`, is spelled with at most `d` digits. */
  lemma {:induction false} StrWidth(n: nat, d: nat)
    requires d >= 1 && n < Digits.Pow(10, d)
    ensures |Str(n)| <= d
  {
    if n >= 10 {
      assert d >= 2 by {
        assert Digits.Pow(10, 1) == 10;
      }
      Digits.DivPow(n, d, 10);
      StrWidth(n / 10, d - 1);
    }
  }

  /** A run of '0' characters denotes zero. */
  lemma {:induction false} ParseZeros(k: nat)
    ensures IsDecimal(Repeat('0', k)) && ParseDecimal(Repeat('0', k)) == 0
  {
    if k > 0 {
      ParseZeros(k - 1);
      assert Repeat('0', k)[..k - 1] == Repeat('0', k - 1);
    }
  }

  /** Leading zeros do not change the number a decimal string denotes. */
  lemma {:induction false} ParseLeadingZeros(k: nat, s: string)
    requires IsDecimal(s)
    ensures IsDecimal(Repeat('0', k) + s)
    ensures ParseDecimal(Repeat('0', k) + s) == ParseDecimal(s)
  {
    var z := Repeat('0', k);
    ParseZeros(k);
    if |s| == 0 {
      assert z + s == z;
    } else {
      var p := s[..|s| - 1];
      ParseLeadingZeros(k, p);
      assert (z + s)[..|z + s| - 1] == z + p;
    }
  }

  /** Zero-filling a string of digits puts the missing zeros in front of it. */
  lemma ZFillDecimal(s: string, width: nat)
    requires IsDecimal(s) && |s| <= width
    ensures ZFill(s, width) == Repeat('0', width - |s|) + s
  {
    if |s| == width {
      assert Repeat('0', 0) + s == s;
    }
  }

  // ---------------------------------------------------------------------------
  // Ordering

  /** Python's `a < b` on strings: lexicographic by code point, a proper prefix first. */
  predicate Less(a: string, b: string)
  {
    if |a| == 0 then |b| > 0
    else if |b| == 0 then false
    else if a[0] != b[0] then a[0] < b[0]
    else Less(a[1..], b[1..])
  }

  lemma {:induction false} LessIrreflexive(a: string)
    ensures !Less(a, a)
  {
    if |a| > 0 {
      LessIrreflexive(a[1..]);
    }
  }

  lemma {:induction false} LessTransitive(a: string, b: string, c: string)
    requires Less(a, b) && Less(b, c)
    ensures Less(a, c)
  {
    if |a| > 0 && a[0] == b[0] && b[0] == c[0] {
      LessTransitive(a[1..], b[1..], c[1..]);
    }
  }

  lemma {:induction false} LessTotal(a: string, b: string)
    requires a != b
    ensures Less(a, b) || Less(b, a)
  {
    if |a| > 0 && |b| > 0 && a[0] == b[0] {
      assert a == [a[0]] + a[1..] && b == [b[0]] + b[1..];
      LessTotal(a[1..], b[1..]);
    }
  }
}

=== FILE: secrets.dfy ===
/**
 The `SecretsFile` store of secrets.py: an in-memory list of entries with a
 dirty flag, filled from the encrypted store file and from a plain-text
 staging file, and written back only when the flag is set.

 Files are parameters: their presence and text are given as `Option`s,
 `None` meaning the `FileNotFoundError` the source catches. The hash,
 Base64 and Fernet operations are the fields of a `Crypto` record.
 */
module Secrets {
  import opened Wrappers
  import opened Digits
  import PyStr
  import Seqs

  /**
   The cryptographic and encoding primitives the store uses, left abstract.
   `openLine` stands for `base64.b64decode`, `Fernet.decrypt` and
   `.decode("UTF-8")` of one stored line, `None` being any exception they
   raise; `encrypt` includes the random IV and timestamp Fernet adds.
   */
  datatype Crypto = Crypto(
    sha256: seq<byte> -> seq<byte>,
    urlsafeB64: seq<byte> -> seq<byte>,
    encrypt: (seq<byte>, seq<byte>) -> seq<byte>,
    b64: seq<byte> -> string,
    openLine: (seq<byte>, string) -> Option<string>,
    repr: seq<string> -> string,
    utf8: string -> seq<byte>)

  /** The state of a `SecretsFile`: `data`, `__updated` and the Fernet key of `__cipher_suite`. */
  datatype SecretsFile = SecretsFile(data: seq<string>, updated: bool, key: seq<byte>)

  /** `derive_key`: the URL-safe Base64 of the SHA-256 of the key-file bytes. */
  function DeriveKey(keyFile: seq<byte>, c: Crypto): seq<byte> {
    c.urlsafeB64(c.sha256(keyFile))
  }

  // ---------------------------------------------------------------------------
  // Removing an entry

  /**
   `remove_entry`: the first entry equal to `e` is removed and the flag set;
   when there is none the `ValueError` is swallowed and nothing changes.
   */
  function RemoveEntry(s: SecretsFile, e: string): (r: SecretsFile)
    ensures e !in s.data ==> r == s
    ensures e in s.data ==>
      var i := Seqs.IndexOf(s.data, e).value;
      && r.updated && r.key == s.key
      && r.data == s.data[..i] + s.data[i + 1..]
      && multiset(r.data) == multiset(s.data) - multiset{e}
    ensures r.updated <==> s.updated || e in s.data
  {
    match Seqs.RemoveFirst(s.data, e)
    case None => s
    case Some(rest) => s.(data := rest, updated := true)
  }

  // ---------------------------------------------------------------------------
  // The staging file

  /** The elements of `ls` joined end to end. */
  function Concat(ls: seq<string>): string {
    if |ls| == 0 then [] else ls[0] + Concat(ls[1..])
  }

  /** No newline except possibly as the last character. */
  predicate IsLine(l: string) {
    forall k :: 0 <= k < |l| - 1 ==> l[k] != '\n'
  }

  /**
   `f.readlines()`: the text cut after every newline, each newline kept with
   its line; a last line without a newline is kept as it is.
   */
  function ReadLines(t: string): (ls: seq<string>)
    ensures Concat(ls) == t
    ensures forall i :: 0 <= i < |ls| ==> |ls[i]| > 0 && IsLine(ls[i])
    ensures forall i :: 0 <= i < |ls| - 1 ==> ls[i][|ls[i]| - 1] == '\n'
    decreases |t|
  {
    if |t| == 0 then []
    else
      match Seqs.IndexOf(t, '\n')
      case None =>
        LastLine(t);
        [t]
      case Some(i) =>
        var rest := ReadLines(t[i + 1..]);
        LinesCons(t, i, rest);
        [t[..i + 1]] + rest
  }

  /** Text without a newline is one line. */
  lemma LastLine(t: string)
    requires '\n' !in t
    ensures Concat([t]) == t && IsLine(t)
  {
    assert [t][1..] == [];
    assert t + [] == t;
  }

  /** The first line, up to and including the first newline, in front of the lines of the rest. */
  lemma LinesCons(t: string, i: nat, rest: seq<string>)
    requires i < |t| && t[i] == '\n' && '\n' !in t[..i]
    requires Concat(rest) == t[i + 1..]
    requires forall j :: 0 <= j < |rest| ==> |rest[j]| > 0 && IsLine(rest[j])
    requires forall j :: 0 <= j < |rest| - 1 ==> rest[j][|rest[j]| - 1] == '\n'
    ensures var ls := [t[..i + 1]] + rest;
      && Concat(ls) == t
      && (forall j :: 0 <= j < |ls| ==> |ls[j]| > 0 && IsLine(ls[j]))
      && (forall j :: 0 <= j < |ls| - 1 ==> ls[j][|ls[j]| - 1] == '\n')
  {
    var ls := [t[..i + 1]] + rest;
    assert ls[1..] == rest;
    assert t == t[..i + 1] + t[i + 1..];
    var first := t[..i + 1];
    assert IsLine(first) by {
      forall k | 0 <= k < i ensures first[k] != '\n' {
        assert first[k] == t[..i][k];
      }
    }
    forall j | 1 <= j < |ls| ensures ls[j] == rest[j - 1] { }
  }

  /** The entries the lines of a staging file add: each line longer than one character, stripped. */
  function StagedEntries(lines: seq<string>): (r: seq<string>)
    ensures |r| <= |lines|
  {
    if |lines| == 0 then []
    else (if |lines[0]| > 1 then [PyStr.Strip(lines[0])] else []) + StagedEntries(lines[1..])
  }

  /** An entry is staged exactly when it is the stripped text of a line longer than one character. */
  lemma {:induction false} StagedEntriesMembers(lines: seq<string>, x: string)
    ensures x in StagedEntries(lines) <==> exists i :: 0 <= i < |lines| && |lines[i]| > 1 && x == PyStr.Strip(lines[i])
  {
    if |lines| > 0 {
      var tail := lines[1..];
      StagedEntriesMembers(tail, x);
      if x in StagedEntries(tail) {
        var i :| 0 <= i < |tail| && |tail[i]| > 1 && x == PyStr.Strip(tail[i]);
        assert lines[i + 1] == tail[i];
      }
      if exists i :: 0 <= i < |lines| && |lines[i]| > 1 && x == PyStr.Strip(lines[i]) {
        var i :| 0 <= i < |lines| && |lines[i]| > 1 && x == PyStr.Strip(lines[i]);
        if i > 0 {
          assert tail[i - 1] == lines[i];
        }
      }
    }
  }

  /** Staging is line by line: the entries of two runs of lines are the entries of each, in order. */
  lemma {:induction false} StagedEntriesAppend(a: seq<string>, b: seq<string>)
    ensures StagedEntries(a + b) == StagedEntries(a) + StagedEntries(b)
  {
    if |a| == 0 {
      assert a + b == b;
    } else {
      StagedEntriesAppend(a[1..], b);
      StagedAppendStep(a, b);
    }
  }

  lemma StagedAppendStep(a: seq<string>, b: seq<string>)
    requires |a| > 0
    requires StagedEntries(a[1..] + b) == StagedEntries(a[1..]) + StagedEntries(b)
    ensures StagedEntries(a + b) == StagedEntries(a) + StagedEntries(b)
  {
    Seqs.SliceConcat(a, b, 1);
    assert (a + b)[0] == a[0];
    var h := if |a[0]| > 1 then [PyStr.Strip(a[0])] else [];
    Seqs.Assoc(h, StagedEntries(a[1..]), StagedEntries(b));
  }

  /**
   `check_new_entry`: with no staging file nothing changes; otherwise the
   flag is set, whatever the file holds, and its entries are appended after
   the existing ones.
   */
  function CheckNewEntry(s: SecretsFile, staging: Option<string>): (r: SecretsFile)
    ensures staging.None? ==> r == s
    ensures staging.Some? ==>
      && r.updated && r.key == s.key
      && |r.data| >= |s.data| && r.data[..|s.data|] == s.data
      && r.data[|s.data|..] == StagedEntries(ReadLines(staging.value))
  {
    match staging
    case None => s
    case Some(text) =>
      var data := s.data + StagedEntries(ReadLines(text));
      assert data[..|s.data|] == s.data && data[|s.data|..] == StagedEntries(ReadLines(text));
      s.(data := data, updated := true)
  }

  /** A blank line is skipped, but a line of only whitespace adds an empty entry. */
  lemma WhitespaceLineAddsEmptyEntry()
    ensures StagedEntries(["\n"]) == []
    ensures StagedEntries([" \n"]) == [""]
  {
    assert PyStr.IsSpace(' ') && PyStr.IsSpace('\n');
    assert PyStr.LeadingSpaces(" \n") == 2;
    assert PyStr.Strip(" \n") == "";
  }

  /** A last line of one character and no newline is not added. */
  lemma OneCharacterLastLineSkipped(text: string, x: char)
    requires |text| > 0 && text[|text| - 1] == '\n'
    ensures ReadLines(text + [x]) == ReadLines(text) + [[x]]
    ensures StagedEntries(ReadLines(text + [x])) == StagedEntries(ReadLines(text))
  {
    ReadLinesAppend(text, [x]);
    ReadLinesOfOne(x);
    StagedEntriesAppend(ReadLines(text), [[x]]);
    assert StagedEntries([[x]]) == [];
    assert StagedEntries(ReadLines(text)) + [] == StagedEntries(ReadLines(text));
  }

  lemma ReadLinesOfOne(x: char)
    ensures ReadLines([x]) == [[x]]
  {
    if x == '\n' {
      assert [x][..1] == [x] && [x][1..] == [];
    } else {
      assert x !in [x][..0];
    }
  }

  /** Text after a newline is read as lines of its own. */
  lemma {:induction false} ReadLinesAppend(t: string, u: string)
    requires |t| > 0 && t[|t| - 1] == '\n'
    ensures ReadLines(t + u) == ReadLines(t) + ReadLines(u)
    decreases |t|
  {
    var i := Seqs.IndexOf(t, '\n').value;
    if i + 1 < |t| {
      ReadLinesAppend(t[i + 1..], u);
    }
    ReadLinesAppendStep(t, u, i);
  }

  lemma ReadLinesAppendStep(t: string, u: string, i: nat)
    requires |t| > 0 && t[|t| - 1] == '\n'
    requires Seqs.IndexOf(t, '\n') == Some(i)
    requires i + 1 < |t| ==> ReadLines(t[i + 1..] + u) == ReadLines(t[i + 1..]) + ReadLines(u)
    ensures ReadLines(t + u) == ReadLines(t) + ReadLines(u)
  {
    FirstNewline(t, u, i);
    ReadLinesUnfold(t + u, i);
    ReadLinesUnfold(t, i);
    if i + 1 == |t| {
      LastLineAppend(t, u, i);
    } else {
      InnerLineAppend(t, u, i);
    }
  }

  lemma LastLineAppend(t: string, u: string, i: nat)
    requires i + 1 == |t|
    requires ReadLines(t + u) == [(t + u)[..i + 1]] + ReadLines((t + u)[i + 1..])
    requires ReadLines(t) == [t[..i + 1]] + ReadLines(t[i + 1..])
    ensures ReadLines(t + u) == ReadLines(t) + ReadLines(u)
  {
    Seqs.SliceConcat(t, u, i + 1);
    assert t[i + 1..] == [];
  }

  lemma InnerLineAppend(t: string, u: string, i: nat)
    requires i + 1 < |t|
    requires ReadLines(t[i + 1..] + u) == ReadLines(t[i + 1..]) + ReadLines(u)
    requires ReadLines(t + u) == [(t + u)[..i + 1]] + ReadLines((t + u)[i + 1..])
    requires ReadLines(t) == [t[..i + 1]] + ReadLines(t[i + 1..])
    ensures ReadLines(t + u) == ReadLines(t) + ReadLines(u)
  {
    Seqs.SliceConcat(t, u, i + 1);
    Seqs.Assoc([t[..i + 1]], ReadLines(t[i + 1..]), ReadLines(u));
  }

  /** `ReadLines` cuts at the first newline. */
  lemma ReadLinesUnfold(t: string, i: nat)
    requires Seqs.IndexOf(t, '\n') == Some(i)
    ensures ReadLines(t) == [t[..i + 1]] + ReadLines(t[i + 1..])
  {
  }

  /** The first newline of `t` is the first newline of `t + u`. */
  lemma FirstNewline(t: string, u: string, i: nat)
    requires Seqs.IndexOf(t, '\n') == Some(i)
    ensures Seqs.IndexOf(t + u, '\n') == Some(i)
  {
    var tu := t + u;
    assert tu[..i] == t[..i];
    assert tu[i] == '\n';
  }

  // ---------------------------------------------------------------------------
  // The store file

  /**
   The entries the loop appends before it stops: the opened lines, in order,
   up to the first line that fails to decode or decrypt.
   */
  function OpenPrefix(key: seq<byte>, lines: seq<string>, c: Crypto): (r: seq<string>)
    ensures |r| <= |lines|
    ensures forall i :: 0 <= i < |r| ==> Some(r[i]) == c.openLine(key, lines[i])
    ensures |r| < |lines| ==> c.openLine(key, lines[|r|]).None?
  {
    if |lines| == 0 then []
    else
      match c.openLine(key, lines[0])
      case None => []
      case Some(e) => [e] + OpenPrefix(key, lines[1..], c)
  }

  /**
   The entries of the stored lines, one per line in order; `None` when any
   line fails to decode or decrypt.
   */
  function OpenLines(key: seq<byte>, lines: seq<string>, c: Crypto): (r: Option<seq<string>>)
    ensures r.Some? <==> forall i :: 0 <= i < |lines| ==> c.openLine(key, lines[i]).Some?
    ensures r.Some? ==> |r.value| == |lines|
    ensures r.Some? ==> forall i :: 0 <= i < |lines| ==> Some(r.value[i]) == c.openLine(key, lines[i])
  {
    var prefix := OpenPrefix(key, lines, c);
    if |prefix| == |lines| then Some(prefix) else None
  }

  /** The object after `decrypt_db`, and whether it raised. */
  datatype Loaded = Loaded(state: SecretsFile, raised: bool)

  /**
   `decrypt_db`: with no store file nothing changes. Otherwise one entry per
   stored line is appended; a bad line raises, and the entries of the lines
   before it stay appended.
   */
  function DecryptDb(s: SecretsFile, store: Option<seq<string>>, c: Crypto): (r: Loaded)
    ensures store.None? ==> r == Loaded(s, false)
    ensures r.state.updated == s.updated && r.state.key == s.key
    ensures |s.data| <= |r.state.data| && r.state.data[..|s.data|] == s.data
    ensures store.Some? ==> (r.raised <==> OpenLines(s.key, store.value, c).None?)
    ensures store.Some? && !r.raised ==> r.state.data[|s.data|..] == OpenLines(s.key, store.value, c).value
    ensures store.Some? && r.raised ==>
      var added := r.state.data[|s.data|..];
      && |added| < |store.value|
      && (forall i :: 0 <= i < |added| ==> Some(added[i]) == c.openLine(s.key, store.value[i]))
      && c.openLine(s.key, store.value[|added|]).None?
  {
    match store
    case None => Loaded(s, false)
    case Some(lines) =>
      var added := OpenPrefix(s.key, lines, c);
      var data := s.data + added;
      assert data[..|s.data|] == s.data && data[|s.data|..] == added;
      Loaded(s.(data := data), |added| < |lines|)
  }

  /**
   `SecretsFile(path)`: read the key file, derive the key, load the store,
   then merge the staging file. A missing key file or a bad stored line is
   an exception, `None` here.
   */
  function Open(keyFile: Option<seq<byte>>, store: Option<seq<string>>, staging: Option<string>, c: Crypto)
    : (r: Option<SecretsFile>)
    ensures keyFile.None? ==> r.None?
    ensures keyFile.Some? && store.None? ==> r.Some?
    ensures r.Some? ==>
      && keyFile.Some?
      && r.value.key == DeriveKey(keyFile.value, c)
      && (r.value.updated <==> staging.Some?)
    ensures keyFile.Some? ==>
      (r.Some? <==> store.None? || OpenLines(DeriveKey(keyFile.value, c), store.value, c).Some?)
    ensures r.Some? && store.None? ==>
      r.value.data == if staging.None? then [] else StagedEntries(ReadLines(staging.value))
    ensures r.Some? && store.Some? ==>
      r.value.data == OpenLines(r.value.key, store.value, c).value
        + (if staging.None? then [] else StagedEntries(ReadLines(staging.value)))
  {
    match keyFile
    case None => None
    case Some(bytes) =>
      var empty := SecretsFile([], false, DeriveKey(bytes, c));
      var loaded := DecryptDb(empty, store, c);
      if loaded.raised then None else Some(CheckNewEntry(loaded.state, staging))
  }

  // ---------------------------------------------------------------------------
  // Writing back

  /** `n` copies of `t`, end to end. */
  function Copies(t: string, n: nat): (r: string)
    ensures |r| == n * |t|
    ensures forall k :: 0 <= k < |r| ==> r[k] == t[k % |t|]
  {
    if n == 0 then []
    else
      var rest := Copies(t, n - 1);
      CopiesStep(t, n, rest);
      t + rest
  }

  lemma CopiesStep(t: string, n: nat, rest: string)
    requires n > 0 && |rest| == (n - 1) * |t|
    requires forall k :: 0 <= k < |rest| ==> rest[k] == t[k % |t|]
    ensures |t + rest| == n * |t|
    ensures forall k :: 0 <= k < |t + rest| ==> (t + rest)[k] == t[k % |t|]
  {
    forall k | 0 <= k < |t + rest| ensures (t + rest)[k] == t[k % |t|] {
      ModAfterOne(k, |t|);
    }
  }

  /** Below `m` the remainder is the number itself; above it, one `m` less has the same remainder. */
  lemma ModAfterOne(k: nat, m: nat)
    requires m > 0
    ensures k < m ==> k % m == k
    ensures k >= m ==> (k - m) % m == k % m
  {
    if k < m {
      DivModStep(0, k, m);
    } else {
      Euclid(k - m, m);
      DivModStep((k - m) / m + 1, (k - m) % m, m);
    }
  }

  /**
   `encrypt_data`: nothing is written when the flag is clear. Otherwise the
   entries' `str()` is encoded and encrypted once, and the Base64 of that
   token is written once for every byte of the encoded text.
   */
  function EncryptData(s: SecretsFile, c: Crypto): (w: Option<string>)
    ensures !s.updated ==> w.None?
    ensures s.updated ==>
      var plain := c.utf8(c.repr(s.data));
      var blob := c.b64(c.encrypt(s.key, plain));
      && w.Some? && |w.value| == |plain| * |blob|
      && forall k :: 0 <= k < |w.value| ==> w.value[k] == blob[k % |blob|]
  {
    if !s.updated then None
    else
      var plain := c.utf8(c.repr(s.data));
      Some(Copies(c.b64(c.encrypt(s.key, plain)), |plain|))
  }

  /** `finalize`: write the store back only if an entry was added or removed. */
  function Finalize(s: SecretsFile, c: Crypto): (w: Option<string>)
    ensures w.Some? <==> s.updated
    ensures s.updated ==> w == EncryptData(s, c)
  {
    if s.updated then EncryptData(s, c) else None
  }

  /**
   A session with no staging file that only tries to remove entries it does
   not hold writes nothing back.
   */
  lemma {:induction false} NothingToWrite(keyFile: seq<byte>, store: Option<seq<string>>, absent: seq<string>, c: Crypto)
    requires Open(Some(keyFile), store, None, c).Some?
    requires forall e :: e in absent ==> e !in Open(Some(keyFile), store, None, c).value.data
    ensures Finalize(RemoveAll(Open(Some(keyFile), store, None, c).value, absent), c).None?
  {
    var s := Open(Some(keyFile), store, None, c).value;
    RemoveAbsent(s, absent);
  }

  /** Removing the entries of `es` one after another. */
  function RemoveAll(s: SecretsFile, es: seq<string>): (r: SecretsFile)
    ensures r.key == s.key
    ensures s.updated ==> r.updated
    decreases |es|
  {
    if |es| == 0 then s else RemoveAll(RemoveEntry(s, es[0]), es[1..])
  }

  lemma {:induction false} RemoveAbsent(s: SecretsFile, es: seq<string>)
    requires forall e :: e in es ==> e !in s.data
    ensures RemoveAll(s, es) == s
  {
    if |es| > 0 {
      assert es[0] in es;
      assert forall e :: e in es[1..] ==> e in es;
      RemoveAbsent(s, es[1..]);
    }
  }
}

=== FILE: seqs.dfy ===
/** Python's `seq.index(x)` and `list.remove(x)`, with the `ValueError` as `None`, and two facts about concatenation. */
module Seqs {
  import opened Wrappers

  /** `xs.index(x)`: the position of the first occurrence of `x`, `None` when it is absent. */
  function IndexOf<T(==)>(xs: seq<T>, x: T): (r: Option<nat>)
    ensures r.None? <==> x !in xs
    ensures r.Some? ==> r.value < |xs| && xs[r.value] == x && x !in xs[..r.value]
  {
    if |xs| == 0 then None
    else if xs[0] == x then Some(0)
    else
      match IndexOf(xs[1..], x)
      case None => None
      case Some(i) =>
        assert xs[..i + 1] == [xs[0]] + xs[1..][..i];
        Some(i + 1)
  }

  /**
   `xs.remove(x)`: `xs` without its first occurrence of `x`, every other
   element kept in order; `None` (the `ValueError`) when `x` is absent.
   */
  function RemoveFirst<T(==)>(xs: seq<T>, x: T): (r: Option<seq<T>>)
    ensures r.None? <==> x !in xs
    ensures r.Some? ==> |r.value| == |xs| - 1 && multiset(r.value) == multiset(xs) - multiset{x}
    ensures r.Some? ==> var i := IndexOf(xs, x).value; r.value == xs[..i] + xs[i + 1..]
  {
    match IndexOf(xs, x)
    case None => None
    case Some(i) =>
      assert xs == xs[..i] + [x] + xs[i + 1..];
      Some(xs[..i] + xs[i + 1..])
  }

  /** Concatenation is associative. */
  lemma Assoc<T>(a: seq<T>, b: seq<T>, c: seq<T>)
    ensures (a + b) + c == a + (b + c)
  {
  }

  /** Cutting `t + u` inside `t` cuts `t`. */
  lemma SliceConcat<T>(t: seq<T>, u: seq<T>, k: nat)
    requires k <= |t|
    ensures (t + u)[..k] == t[..k] && (t + u)[k..] == t[k..] + u
  {
  }
}

=== FILE: totp.dfy ===
/**
 The `TOTP` class of totp.py (section 4 of RFC 6238 over section 5.3 of
 RFC 4226): a secret, a time-step counter, the time of the last refresh and
 the cached code, refreshed when the cache is 30 seconds old or older.

 Time is a whole number of seconds passed in by the caller; HMAC-SHA1 is a
 parameter. The secret is decoded with the standard library's Base32
 decoder, modelled by `Base32.Decode`.
 */
module Totp {
  import opened Wrappers
  import opened Digits
  import PyStr
  import Base32
  import opened Hotp

  /** Seconds per counter step (`time_step`). */
  const TimeStep: nat := 30

  /** Seconds after which the cached code counts as old. */
  const FreshFor: nat := 30

  const DefaultName: string := "NOT SET"
  const DefaultAccount: string := "your@email.com"
  const DefaultDigits: nat := 6

  /** The exception `__set_hotp` raises: from `b32decode`, or from packing the counter. */
  datatype HotpError = BadSecret(decode: Base32.DecodeError) | BadCounter(pack: PackError)

  /** The state of a `TOTP` object; `code` is the `totp` attribute. */
  datatype Totp = Totp(
    secret: string,
    digits: nat,
    name: string,
    account: string,
    counter: nat,
    lastUpdated: nat,
    code: string)

  /**
   `secret + "=" * ((8 - len(secret) % 8) % 8)`: the fewest `=` that make the
   length a multiple of 8, so an aligned secret is left as it is.
   */
  function PadSecret(s: string): (p: string)
    ensures |p| % 8 == 0 && |s| <= |p| < |s| + 8
    ensures p == s + PyStr.Repeat(Base32.PadChar, |p| - |s|)
    ensures |s| % 8 == 0 ==> p == s
  {
    var p := s + PyStr.Repeat(Base32.PadChar, (8 - |s| % 8) % 8);
    assert |s| % 8 == 0 ==> p == s;
    p
  }

  /**
   `__set_hotp`: decode the padded secret, then pack the counter, then the
   HOTP code. A bad secret is reported before a bad counter.
   */
  function SetHotp(secret: string, counter: nat, digits: nat, hmac: Hmac): (r: Result<string, HotpError>)
    ensures var key := Base32.Decode(PadSecret(secret));
      && (key.Failure? ==> r == Failure(BadSecret(key.error)))
      && (key.Success? ==> (r.Success? <==> counter < CounterLimit))
      && (key.Success? && r.Failure? ==> r == Failure(BadCounter(ValueTooLarge)))
      && (r.Success? ==> key.Success? && Ok(r.value, key.value, counter, digits, hmac))
  {
    match Base32.Decode(PadSecret(secret))
    case Failure(e) => Failure(BadSecret(e))
    case Success(key) =>
      match HotpCode(key, counter, digits, hmac)
      case Failure(e) => Failure(BadCounter(e))
      case Success(code) => Success(code)
  }

  /** `code` is the HOTP code of `counter` under `key` as section 5.3 of RFC 4226 defines it. */
  predicate Ok(code: string, key: seq<byte>, counter: nat, digits: nat, hmac: Hmac)
    requires counter < CounterLimit
  {
    && (digits >= 1 ==> |code| == digits)
    && (digits == 0 ==> code == "0")
    && PyStr.IsDecimal(code)
    && PyStr.ParseDecimal(code) == Truncate(hmac(key, PackCounter(counter).value)) % Pow(10, digits)
  }

  /** `int(time() // time_step)`: the number of whole time steps since the epoch. */
  function Counter(now: nat): (c: nat)
    ensures c * TimeStep <= now < (c + 1) * TimeStep
  {
    now / TimeStep
  }

  /** Later times never give a smaller counter. */
  lemma CounterMonotone(t0: nat, t1: nat)
    requires t0 <= t1
    ensures Counter(t0) <= Counter(t1)
  {
    var c0, c1 := Counter(t0), Counter(t1);
    assert (c1 + 1 - c0) * TimeStep > 0;
    MulPositive(c1 + 1 - c0, TimeStep);
  }

  /** Thirty seconds later the counter is one step further. */
  lemma CounterNextStep(now: nat)
    ensures Counter(now + TimeStep) == Counter(now) + 1
  {
    DivModStep(Counter(now) + 1, now % TimeStep, TimeStep);
  }

  /** A consistent object: its counter belongs to its refresh time and its code to its counter. */
  predicate Valid(t: Totp, hmac: Hmac) {
    t.counter == Counter(t.lastUpdated) && SetHotp(t.secret, t.counter, t.digits, hmac) == Success(t.code)
  }

  /**
   `TOTP(secret, name, account, digits)` at time `now`: the secret upper-cased,
   the account lower-cased, the counter of `now`, and a first code; fails
   when `__set_hotp` raises.
   */
  function New(secret: string, name: string, account: string, digits: nat, now: nat, hmac: Hmac)
    : (r: Result<Totp, HotpError>)
    ensures r.Failure? <==> SetHotp(PyStr.Upper(secret), Counter(now), digits, hmac).Failure?
    ensures r.Failure? ==> r.error == SetHotp(PyStr.Upper(secret), Counter(now), digits, hmac).error
    ensures r.Success? ==>
      && r.value.secret == PyStr.Upper(secret) && r.value.account == PyStr.Lower(account)
      && r.value.name == name && r.value.digits == digits && r.value.lastUpdated == now
      && Valid(r.value, hmac)
  {
    var s := PyStr.Upper(secret);
    var code :- SetHotp(s, Counter(now), digits, hmac);
    Success(Totp(s, digits, name, PyStr.Lower(account), Counter(now), now, code))
  }

  /**
   `TOTP(secret)` with the default arguments: the name "NOT SET", the
   account "your@email.com" (already lower-case) and six-digit codes.
   */
  function NewDefault(secret: string, now: nat, hmac: Hmac): (r: Result<Totp, HotpError>)
    ensures r.Failure? <==> SetHotp(PyStr.Upper(secret), Counter(now), 6, hmac).Failure?
    ensures r.Failure? ==> r.error == SetHotp(PyStr.Upper(secret), Counter(now), 6, hmac).error
    ensures r.Success? ==>
      && r.value.name == "NOT SET" && r.value.account == "your@email.com"
      && r.value.digits == 6 && |r.value.code| == 6 && Valid(r.value, hmac)
  {
    assert PyStr.Lower(DefaultAccount) == DefaultAccount;
    New(secret, DefaultName, DefaultAccount, DefaultDigits, now, hmac)
  }

  /** `__is_old`: at least 30 seconds since the last refresh (never, if the clock went back). */
  predicate IsOld(t: Totp, now: nat) {
    now - t.lastUpdated >= FreshFor
  }

  /** The object after a call, and what the call returned or raised. */
  datatype Served<T> = Served(state: Totp, result: Result<T, HotpError>)

  /**
   `get_totp`: an old cache is refreshed (new counter and timestamp, then a
   new code); a fresh one is returned as it is. When the refresh raises, the
   counter and timestamp have already moved but the old code stays.
   */
  function GetTotp(t: Totp, now: nat, hmac: Hmac): (s: Served<string>)
    ensures !IsOld(t, now) ==> s == Served(t, Success(t.code))
    ensures IsOld(t, now) ==>
      && s.state == t.(counter := Counter(now), lastUpdated := now, code := s.state.code)
      && s.result == SetHotp(t.secret, Counter(now), t.digits, hmac)
      && s.state.code == (if s.result.Success? then s.result.value else t.code)
  {
    if !IsOld(t, now) then Served(t, Success(t.code))
    else
      var t' := t.(counter := Counter(now), lastUpdated := now);
      match SetHotp(t'.secret, t'.counter, t'.digits, hmac)
      case Success(code) => Served(t'.(code := code), Success(code))
      case Failure(e) => Served(t', Failure(e))
  }

  /** `totp[:3] + " " + totp[3:]`. */
  function Spaced(code: string): (f: string)
    ensures var m := if |code| < 3 then |code| else 3;
      |f| == |code| + 1 && f[m] == ' ' && f[..m] + f[m + 1..] == code
  {
    var m := if |code| < 3 then |code| else 3;
    var f := code[..m] + " " + code[m..];
    assert f[..m] + f[m + 1..] == code;
    f
  }

  /** A six-digit code is shown as `xxx xxx`. */
  lemma SpacedSixDigits(code: string)
    requires |code| == 6
    ensures |Spaced(code)| == 7 && Spaced(code)[3] == ' '
    ensures Spaced(code)[..3] == code[..3] && Spaced(code)[4..] == code[3..]
  {
  }

  /** `get_totp_fmt`: `get_totp`, then the cached code with a space after its third character. */
  function GetTotpFmt(t: Totp, now: nat, hmac: Hmac): (s: Served<string>)
    ensures s.state == GetTotp(t, now, hmac).state
    ensures s.result.Failure? <==> GetTotp(t, now, hmac).result.Failure?
    ensures s.result.Failure? ==> s.result.error == GetTotp(t, now, hmac).result.error
    ensures s.result.Success? ==> s.result.value == Spaced(s.state.code)
  {
    var served := GetTotp(t, now, hmac);
    match served.result
    case Success(_) => Served(served.state, Success(Spaced(served.state.code)))
    case Failure(e) => Served(served.state, Failure(e))
  }

  /** `__lt__`: objects are ordered by their `name`, as given, without case folding. */
  predicate Less(a: Totp, b: Totp) {
    PyStr.Less(a.name, b.name)
  }

  /** `Less` is a strict order, total on objects with different names. */
  lemma LessIsStrictOrder(a: Totp, b: Totp, c: Totp)
    ensures !Less(a, a)
    ensures Less(a, b) && Less(b, c) ==> Less(a, c)
    ensures a.name != b.name ==> Less(a, b) || Less(b, a)
  {
    PyStr.LessIrreflexive(a.name);
    if Less(a, b) && Less(b, c) {
      PyStr.LessTransitive(a.name, b.name, c.name);
    }
    if a.name != b.name {
      PyStr.LessTotal(a.name, b.name);
    }
  }

  /** Names are compared by code point: every capital sorts before every lower-case letter. */
  lemma NamesAreCaseSensitive(a: Totp, b: Totp)
    requires a.name == "Zeta" && b.name == "alpha"
    ensures Less(a, b) && !Less(b, a)
  {
  }

  // ---------------------------------------------------------------------------
  // The cache

  /** A refresh that succeeds leaves a consistent object. */
  lemma GetTotpKeepsValid(t: Totp, now: nat, hmac: Hmac)
    requires Valid(t, hmac)
    requires GetTotp(t, now, hmac).result.Success?
    ensures Valid(GetTotp(t, now, hmac).state, hmac)
    ensures GetTotp(t, now, hmac).result.value == GetTotp(t, now, hmac).state.code
  {
  }

  /**
   The secret of a consistent object decodes, so a refresh can only fail
   once the counter no longer fits in 8 bytes.
   */
  lemma RefreshFailsOnlyOnOverflow(t: Totp, now: nat, hmac: Hmac)
    requires Valid(t, hmac) && IsOld(t, now)
    ensures GetTotp(t, now, hmac).result.Failure? <==> Counter(now) >= CounterLimit
  {
  }

  /** The counter never goes back, however the clock moves. */
  lemma CounterNeverDecreases(t: Totp, now: nat, hmac: Hmac)
    requires Valid(t, hmac)
    ensures GetTotp(t, now, hmac).state.counter >= t.counter
  {
    if IsOld(t, now) {
      CounterMonotone(t.lastUpdated, now);
    }
  }

  /**
   Freshness is measured from the last refresh, not from the start of a time
   step: the code served belongs to the current step or to the one before it.
   */
  lemma ServedCounterLagsAtMostOneStep(t: Totp, now: nat, hmac: Hmac)
    requires Valid(t, hmac) && t.lastUpdated <= now
    ensures var c := GetTotp(t, now, hmac).state.counter;
      Counter(now) - 1 <= c <= Counter(now)
  {
    CounterMonotone(t.lastUpdated, now);
    if !IsOld(t, now) {
      CounterMonotone(now, t.lastUpdated + TimeStep);
      CounterNextStep(t.lastUpdated);
    }
  }

  /** Refreshed at 59 s (step 1), the object still serves step 1 at 60 s, when step 2 has begun. */
  lemma StaleAcrossStepBoundary(t: Totp, hmac: Hmac)
    requires t.lastUpdated == 59 && t.counter == Counter(59)
    ensures Counter(59) == 1 && Counter(60) == 2
    ensures GetTotp(t, 60, hmac) == Served(t, Success(t.code))
  {
  }

  /** Thirty seconds after a refresh the next call refreshes to the next step. */
  lemma RefreshAfterOneStep(t: Totp, hmac: Hmac)
    ensures IsOld(t, t.lastUpdated + TimeStep)
    ensures GetTotp(t, t.lastUpdated + TimeStep, hmac).state.counter == Counter(t.lastUpdated) + 1
  {
    CounterNextStep(t.lastUpdated);
  }

  /** A call right after construction returns the code computed by the constructor. */
  lemma FirstCallServesConstructedCode(
    secret: string, name: string, account: string, digits: nat, now: nat, later: nat, hmac: Hmac)
    requires New(secret, name, account, digits, now, hmac).Success?
    requires now <= later < now + FreshFor
    ensures var t := New(secret, name, account, digits, now, hmac).value;
      GetTotp(t, later, hmac) == Served(t, Success(t.code))
  {
  }
}

=== FILE: wrappers.dfy ===
/** Failure-carrying datatypes used in place of the source's exceptions. */
module Wrappers {

  /** A value that may be absent: a missing file, a symbol not in an alphabet. */
  datatype Option<+T> = None | Some(value: T)

  /** Either the value an operation returns or the exception it raises. */
  datatype Result<+R, +E> = Success(value: R) | Failure(error: E) {

    predicate IsFailure() {
      Failure?
    }

    function PropagateFailure<U>(): Result<U, E>
      requires Failure?
    {
      Failure(error)
    }

    function Extract(): R
      requires Success?
    {
      value
    }
  }
}
